=== FILE: README.md ===
# A verified model of the chunked-response handling in `test_api.py`

`test_api.py` is a command-line probe for a novel site's chapter-directory API.
It speaks HTTP/1.1 over a raw TLS socket and reads the response head. When the
body uses the chunked transfer coding, it cleans the body up into JSON text. If
that text does not parse, it tries to repair truncated JSON. Finally it looks
for the chapter list in the parsed value. The file also holds a complete
chunked decoder, `read_chunked_response`, which the probe itself never calls.

This Dafny project models those pieces:

- **`ChunkedReader`** (`chunked_reader.dfy`) models `read_chunked_response`. The
  socket is a value: the bytes still to arrive, a cursor, and a `plan` that says
  how each `recv` call behaves. A call hands over some bytes (between one and what
  was asked for) or raises a timeout or socket error. Once the plan is used up,
  every call hands over all it may. The decoder is written twice. The spec
  functions `ReadSizeLine`, `ReadPayload`, `ChunkStep`, `ChunkBody` and
  `DecodeFrom` follow its loops. The methods `RecvSizeLine`, `RecvPayload` and
  `ReadChunked` keep the Python's nested `while` loops, and each is proved equal
  to its function.
- **`ChunkedEncoding`** (`chunked_encoding.dfy`) is an independent encoder for the
  chunked coding of section 7.1 of RFC 9112. A sender may spell each size with
  hex digits of either case and with leading zeros (`chunk-size = 1*HEXDIG`),
  and the last chunk's size as any run of zeros. It proves what the decoder makes
  of every such body:
  - the exact payloads when no `recv` fails;
  - a prefix of them when the stream is cut short or a call raises;
  - the partial payload is kept at end of stream and dropped on an exception.
- **`ResponseHeaders`** (`response_headers.dfy`) models how the head and body are
  split at the first `\r\n\r\n`. It covers the header-line loop (a lower-cased
  key, the value after the first `": "`, the last duplicate winning) and the
  `transfer-encoding` test.
- **`LeakedMarkers`** (`leaked_markers.dfy`) models the heuristic clean-up the
  probe applies to a chunked body instead of decoding it. It cuts at the first
  `{"`, runs `re.sub(r'\r\n[0-9a-fA-F]+\r\n', '', …)`, then
  `.replace('\r\n0\r\n', '')`. Both deletions are written as left-to-right scans
  that delete the leftmost match, resume after it, and otherwise keep one
  character. For `re.sub`, the match found at each position is proved to be the
  regular expression's. The scan itself follows `re.sub`'s leftmost,
  non-overlapping rule and is not proved against a second definition. The
  `replace` scan is proved equal to `''.join(s.split(pat))`.
- **`JsonRepair`** (`json_repair.dfy`) models `try_fix_json`.
- **`ChapterLookup`** (`chapter_lookup.dfy`) models the search for the chapter
  list in `process_response_data`, including the `for … break` loop over the six
  candidate keys.
- **`Strings`** (`strings.dfy`) and **`Wrappers`** (`wrappers.dfy`) hold
  `str.find`, `str.split`, `sep.join`, `str.lower` and `Option`.

Some behaviours of the code are worth stating plainly, because they are easy to
misread:

- `try_fix_json('garbage{"a": [1, 2')` returns `None`: the text has no `}`.
  See `JsonRepair.NoClosingBraceNotRepaired`.
- When `recv` raises while a payload is being read, the code drops that chunk's
  partial bytes: line 58 (`data += chunk_data`) is never reached. When the
  stream ends inside a payload, the code keeps them (lines 53-58).
- A size line cut off by end of stream, with no CRLF, is still parsed and used.
- The clean-up leaves the CRLF that ends the zero chunk at the end of the
  text. `json.loads` accepts that as whitespace.

## Model

| member | source | states |
|---|---|---|
| ChunkedReader.Recv | test_api.py:29-61 | One model of `sock.recv(n)` serves all four call sites: `recv(1)` at line 29, `recv(2)` at lines 45 and 61, and `recv(min(remaining, 8192))` at line 52. It hands over between 1 and `min(n, remaining)` bytes taken in order from the stream. It returns none only at end of stream, or it raises and consumes nothing. A call with no failure scheduled cannot raise. |
| ChunkedReader.ReadSizeLine | test_api.py:27-32 | The size line is exactly the bytes consumed from where the line started. A stream with no failure scheduled always yields a line. |
| ChunkedReader.SizeLineEnd | test_api.py:28-32 | The byte loop stops at the first CRLF after the line's start, or at end of stream. It never stops earlier. |
| ChunkedReader.EndsWithCrlfAt | test_api.py:28 | `size_line.endswith(b"\r\n")` holds exactly when the stream has CRLF just before the cursor, within the line. |
| ChunkedReader.TrimStart | test_api.py:38 | `strip()` removes exactly the leading ASCII whitespace. What remains is a suffix that starts with a non-space. |
| ChunkedReader.TrimEnd | test_api.py:38 | `strip()` removes exactly the trailing ASCII whitespace. What remains is a prefix that ends with a non-space. |
| ChunkedReader.Strip | test_api.py:38 | No contract of its own: `bytes.strip()` is `TrimEnd(TrimStart(s))`, whose rows give its meaning. |
| ChunkedReader.HexValue | test_api.py:41 | No contract of its own: the value of hex digits, most significant first. `ChunkedEncoding.HexRoundTrip` and `ChunkedEncoding.UpperCaseAndLeadingZeros` state what it reads. |
| ChunkedReader.ChunkSize | test_api.py:38-41 | No contract of its own: `int(size_line.strip().decode('ascii'), 16)`, with every failure folded into `None`. `ChunkedEncoding.ChunkSizeOfSizeLine` and `ChunkedEncoding.BadSizeLineStops` give its meaning; "## Left out" names the spellings it refuses. |
| ChunkedReader.ReadPayload | test_api.py:49-56 | The payload is the bytes consumed, never more than the chunk size. It stops short only at end of stream. |
| ChunkedReader.ChunkStep | test_api.py:24-62 | One pass of the outer loop only appends to `data`, and appends fewer bytes than it consumes. A pass that goes on always makes progress. |
| ChunkedReader.ChunkBody | test_api.py:43-62 | After the size is known, `data` only grows, and by no more than the bytes consumed. |
| ChunkedReader.DecodeFrom | test_api.py:24-70 | The decoder always returns, with no failure result. It returns what it had, extended. The output is never longer than the input it consumed. |
| ChunkedReader.RecvSizeLine | test_api.py:27-32 | The `recv(1)` loop computes exactly `ReadSizeLine`. |
| ChunkedReader.RecvPayload | test_api.py:49-56 | The `recv(min(remaining, 8192))` loop computes exactly `ReadPayload`. |
| ChunkedReader.ReadChunked | test_api.py:19-70 | `read_chunked_response` with its nested loops returns exactly the bytes and socket state of `DecodeFrom` started with no data. |
| ChunkedEncoding.HexDigit | test_api.py:41 | The encoder's digit is a hex digit, and `int(…, 16)` reads it back as the same value. |
| ChunkedEncoding.ToHex | test_api.py:41 | The usual spelling of a size is a non-empty string of hex digits. |
| ChunkedEncoding.HexRoundTrip | test_api.py:41 | `int(hex(n), 16) == n`: parsing the usual spelling gives the size back. |
| ChunkedEncoding.UpperCaseAndLeadingZeros | test_api.py:41 | `int(…, 16)` reads `1A` as 26, `00a` as 10 and `000` as 0, so these are size lines the round trip covers. |
| ChunkedEncoding.UsualEncodingWellFormed | test_api.py:41 | The usual encoding (lower-case sizes without leading zeros, last size `0`) is a well-formed body. |
| ChunkedEncoding.TrimStartAtHex | test_api.py:38 | `strip()` removes nothing in front of a line that starts with a hex digit. |
| ChunkedEncoding.TrimStartLf | test_api.py:38 | A stray LF left by a one-byte `recv(2)` is removed by the next line's `strip()`. |
| ChunkedEncoding.TrimEndCrlf | test_api.py:38 | `strip()` removes the CRLF that ends a size line. |
| ChunkedEncoding.ChunkSizeOfSizeLine | test_api.py:38-41 | Any size line whose hex digits spell `n`, in either case and with any leading zeros, parses to `n`, with or without a stray LF in front. |
| ChunkedEncoding.LineRead | test_api.py:27-32 | On a stream that carries a size line, a line read without a raise is that line, ending just past it. If the stream ends first, it is a shorter line at end of stream. With no failure scheduled and the whole line present in the stream, it is exactly that line, ending just past it. |
| ChunkedEncoding.PayloadRead | test_api.py:49-56 | On a stream that carries a payload, what is read without a raise is a prefix of that payload. It is the whole payload unless the stream ended. With no failure scheduled and the whole payload present in the stream, it is exactly the payload, ending just past it. |
| ChunkedEncoding.BodyAtEnd | test_api.py:49-61 | At end of stream a chunk body adds nothing and consumes nothing. |
| ChunkedEncoding.DecodeAtEnd | test_api.py:27-35 | At end of stream the decoder returns the data it had. |
| ChunkedEncoding.BadSizeLineStops | test_api.py:27-41 | When the size line cannot be read (`recv(1)` raises) or does not parse (blank after `strip()`, or not hex), the decoder returns exactly the data it had, with the socket where the line read left it. |
| ChunkedEncoding.BodyOnChunk | test_api.py:49-61 | A chunk body on a chunk and its CRLF appends a prefix of the payload. If it goes on, either the stream has ended or it has appended the whole payload and consumed the CR, or the CR and the LF. With no failure scheduled and the payload and its CRLF present, it goes on with the whole payload appended. It has then consumed the CRLF, or only the CR when `recv(2)` returns one byte; with full reads it consumes both. |
| ChunkedEncoding.StepOnLine | test_api.py:24-62 | One pass over a size line and a payload appends a prefix of the payload. If it goes on, either the stream has ended or it has appended the whole payload and stopped at the chunk's end or one byte before it. With no failure scheduled and the whole chunk present, it goes on with the payload appended. It then ends just past the chunk, or one byte short when `recv(2)` returns only the CR; with full reads it ends just past the chunk. |
| ChunkedEncoding.StepOnChunk | test_api.py:24-62 | One pass over an encoded chunk has the shape `ChunkStepShape` describes: a prefix of the payload, and the whole payload on success. |
| ChunkedEncoding.ZeroBody | test_api.py:43-46 | A zero size stops the decoder with the data unchanged, after at most 2 more bytes. With no failure scheduled and at least 2 bytes left in the stream, it reads 1 or 2 bytes, and exactly 2 with full reads. |
| ChunkedEncoding.StepOnLastLine | test_api.py:43-46 | The pass over the zero-size line adds no data. With no failure it stops after at most 2 bytes past the line. |
| ChunkedEncoding.StepOnLastChunk | test_api.py:43-46 | The pass over the last chunk (`0\r\n\r\n`, or `000\r\n\r\n` and the like) adds no data. With no failure it stops at its end, or one byte before it. |
| ChunkedEncoding.DecodeLastChunk | test_api.py:43-46 | From the last chunk the decoder returns the data it had. With no failure it ends at the last chunk's end, or one byte before it. |
| ChunkedEncoding.ChunkAdvance | test_api.py:24-62 | After one pass over an encoded body, the output is a prefix of all payloads. A pass that goes on before the stream ends has appended the first payload and is positioned on the rest of the encoding. With no failure scheduled and the whole body present in the stream, the pass goes on, before the stream ends. |
| ChunkedEncoding.DecodeEncodedPrefix | test_api.py:24-70 | On any stream that carries an encoded body with any spelling of its size lines, under any `recv` schedule, the decoder returns a prefix of the payloads concatenated. |
| ChunkedEncoding.DecodeEncodedExact | test_api.py:24-70 | With no failure and the whole body present, the decoder returns exactly the payloads concatenated. It stops at the body's end, or one byte before it, and exactly at the end with full reads. |
| ChunkedEncoding.DecodesEncodedBody | test_api.py:19-70 | Round trip: decoding an encoded body, followed by anything, gives back the payloads. This holds for every spelling of each size line that a sender may use (`1*HEXDIG`). The size lines and CRLFs never appear in the output. |
| ChunkedEncoding.DecodesUsualEncoding | test_api.py:19-70 | The usual encoding of non-empty chunks decodes to the payloads. |
| ChunkedEncoding.DecodesPrefixOfBody | test_api.py:19-70 | A body cut short anywhere, under any spelling of its size lines, decodes to a prefix of the payloads, without failing. |
| ChunkedEncoding.EndOfStreamKeepsPartialChunk | test_api.py:51-58 | With no failure scheduled, when the stream ends inside a payload, the bytes received so far are appended and kept in the final result. |
| ChunkedEncoding.ExceptionDropsPartialChunk | test_api.py:51-68 | A concrete case: when the first `recv` of a payload delivers `k` bytes and the second raises, those `k` bytes are lost and the decoder stops. |
| ChunkedEncoding.ExceptionInPayloadDropsChunk | test_api.py:51-68 | Whenever a `recv` raises while a payload is read, the pass stops with `data` unchanged: none of that chunk's bytes are appended, because line 58 is skipped. |
| JsonRepair.Repeat | test_api.py:240 | `(c * n).count(d)` is `n` when `d == c`, and 0 otherwise, and the length is `n`. |
| JsonRepair.RepeatOnly | test_api.py:240 | Every character of `c * n` is `c`. |
| JsonRepair.LastIndexOf | test_api.py:234 | `rfind` returns -1 or an index holding `c`, with no `c` after it. |
| JsonRepair.TryFixJson | test_api.py:231-242 | No contract of its own: `try_fix_json`. `TryFixNone`, `TryFixShape`, `TryFixBalanced`, `BalancedUnchanged`, `SameCut` and `TryFixIdempotent` give its meaning. |
| JsonRepair.TryFixNone | test_api.py:234-242 | `try_fix_json` returns `None` exactly when no `}` occurs past index 0. |
| JsonRepair.TryFixShape | test_api.py:234-241 | A repair is the text up to its last `}`, then only `]`s, then only `}`s. It keeps at least two characters. |
| JsonRepair.TryFixBalanced | test_api.py:236-241 | After repair no `[` or `{` is left unclosed. The closers appended bring each count up to the openers of the kept text. Openers are never added. |
| JsonRepair.BalancedUnchanged | test_api.py:234-241 | Text that ends in `}` and is already balanced is returned unchanged. |
| JsonRepair.SameCut | test_api.py:234-240 | Two texts with the same kept prefix get the same repair. |
| JsonRepair.TryFixIdempotent | test_api.py:231-242 | Repairing a repaired text changes nothing. |
| JsonRepair.NoClosingBraceNotRepaired | test_api.py:234-242 | `'garbage{"a": [1, 2'` has no `}`, so it is not repaired. |
| JsonRepair.TruncatedListRepaired | test_api.py:231-241 | `'{"a":[{},{'` is cut after its last `}` and closed as `'{"a":[{}]}'`. |
| Strings.Find | test_api.py:122 | `find` returns the first index where the pattern occurs, or -1 when it does not occur. |
| Strings.FindContains | test_api.py:133 | `pat in s` holds exactly when `find` does not return -1. |
| Strings.FindFirst | test_api.py:172 | An occurrence with none before it is the one `find` reports. |
| Strings.NoneBeforeFirst | test_api.py:122 | The text before the first occurrence of a pattern does not hold it. |
| Strings.Split | test_api.py:127 | `split` yields at least one part. |
| Strings.SplitJoin | test_api.py:127 | Joining the parts of `split(sep)` with `sep` gives the text back. |
| Strings.SplitParts | test_api.py:127 | No part of `split(sep)` holds `sep`. |
| Strings.Lower | test_api.py:135 | `lower()` keeps the length and leaves no capital letter. Each capital becomes its small letter, and every other character is kept. |
| ResponseHeaders.SplitResponse | test_api.py:122-124 | No contract of its own: the `find` and the two slices around it. `SplitResponseFound` and `SplitResponseMissing` give its meaning. |
| ResponseHeaders.SplitResponseFound | test_api.py:122-124 | With a `\r\n\r\n` present, the response is head + `\r\n\r\n` + body, and the head holds no `\r\n\r\n`. |
| ResponseHeaders.SplitResponseMissing | test_api.py:122-124 | With no `\r\n\r\n`, `find` gives -1. So the head loses its last character and the body starts at index 3. |
| ResponseHeaders.SplitFieldParts | test_api.py:133-134 | A line is a field exactly when it holds `": "`. Then it is key + `": "` + value, and the key holds no `": "`, so the split is at the first one. |
| ResponseHeaders.SplitField | test_api.py:134 | No contract of its own: `line.split(": ", 1)`. `SplitFieldParts` gives its meaning. |
| ResponseHeaders.HeaderMap | test_api.py:131-135 | No contract of its own: the dictionary the header loop builds. `HeaderPresent`, `HeaderValue`, `HeaderMapKeysLower` and `ParseHeaders` give its meaning. |
| ResponseHeaders.HeaderPresent | test_api.py:131-135 | A name is in the dictionary exactly when some header line defines it. |
| ResponseHeaders.HeaderValue | test_api.py:131-135 | The value stored for a name comes from the last line that defines it. |
| ResponseHeaders.HeaderMapKeysLower | test_api.py:135 | Every key in the dictionary is lower case. |
| ResponseHeaders.LowerIdempotent | test_api.py:135 | Lower-casing twice is lower-casing once. |
| ResponseHeaders.ParseHeaders | test_api.py:127-135 | The status line is the first line, and the loop builds the dictionary of the remaining lines. |
| ResponseHeaders.IsChunked | test_api.py:143 | No contract of its own: `headers.get('transfer-encoding', '').lower() == 'chunked'`. `ChunkedIffLastTransferEncoding` gives its meaning. |
| ResponseHeaders.ChunkedIffLastTransferEncoding | test_api.py:143 | The body is taken as chunked exactly when the last `transfer-encoding` line's value lower-cases to `chunked`. |
| LeakedMarkers.HexRunMaximal | test_api.py:179 | The greedy `[0-9a-fA-F]+` run is all hex digits, and the character after it is not one. |
| LeakedMarkers.MarkerLen | test_api.py:179 | No contract of its own: the length the pattern consumes at a position, 0 when it does not match. `MarkerLenIsMatch` ties it to the regular expression. |
| LeakedMarkers.MarkerLenIsMatch | test_api.py:179 | `\r\n[0-9a-fA-F]+\r\n` matches a prefix of a given length exactly when the scanner consumes that length. No shorter match exists. |
| LeakedMarkers.RemoveSizeMarkers | test_api.py:179 | `re.sub` never lengthens the text. |
| LeakedMarkers.RemoveAll | test_api.py:180 | `replace(pat, '')` never lengthens the text. |
| LeakedMarkers.RemoveAllCopies | test_api.py:180 | Text before the first occurrence is copied unchanged. |
| LeakedMarkers.RemoveAllAbsent | test_api.py:180 | Text without the pattern is left as it is. |
| LeakedMarkers.RemoveAllIsSplitJoin | test_api.py:180 | `s.replace(pat, '') == ''.join(s.split(pat))`. |
| LeakedMarkers.StripLeakedMarkers | test_api.py:172-180 | No contract of its own: the cut at `{"`, then `re.sub`, then `replace`. `StripShortens`, `StripRecoversPayloads`, `DeletesHexBetweenCrlfs` and `MarkerBetweenObjects` give its meaning. |
| LeakedMarkers.StripShortens | test_api.py:172-180 | The clean-up never lengthens the text, and drops at least what precedes the first `{"`. Text with no `{"` is kept as read. |
| LeakedMarkers.CopiesCrFree | test_api.py:179 | Text without a carriage return passes through `re.sub` unchanged. |
| LeakedMarkers.RemovesZeroChunk | test_api.py:179-180 | The zero chunk's `\r\n0\r\n` is removed, leaving the final CRLF. |
| LeakedMarkers.RemovesFrame | test_api.py:179 | A chunk's closing CRLF with the next size line is removed, and the payload after it is kept. |
| LeakedMarkers.RemoveFramedTail | test_api.py:179 | After the first payload, `re.sub` leaves exactly the remaining payloads and one CRLF. |
| LeakedMarkers.CutAtFirstPayload | test_api.py:172-174 | On a chunked body whose first payload opens with `{"`, the cut drops exactly the first size line. |
| LeakedMarkers.KeepsCrFree | test_api.py:180 | `replace('\r\n0\r\n', '')` keeps text that has no carriage return followed by at most four more characters. |
| LeakedMarkers.StripRecoversPayloads | test_api.py:167-180 | For any chunked body whose payloads hold no carriage return and whose first payload starts with `{"`, the clean-up yields the payloads concatenated, plus one CRLF. |
| LeakedMarkers.DeletesHexBetweenCrlfs | test_api.py:179 | In JSON text, any hex-looking token standing alone between two CRLFs is deleted along with them. |
| LeakedMarkers.MarkerBetweenObjects | test_api.py:172-180 | `'{"a":1}\r\n1a\r\n{"b":2}'` becomes `'{"a":1}{"b":2}'`. |
| ChapterLookup.FirstPresent | test_api.py:264-268 | No contract of its own: the value under the first present key. `FirstPresentNone`, `FirstPresentSome` and `FirstPresentSkip` give its meaning. |
| ChapterLookup.FirstPresentNone | test_api.py:263-270 | The loop finds nothing exactly when none of the keys is present. |
| ChapterLookup.FirstPresentSome | test_api.py:264-268 | What the loop finds is the value under the earliest present key. |
| ChapterLookup.FirstPresentSkip | test_api.py:264-268 | Skipping keys known to be absent does not change the result. |
| ChapterLookup.FindChapterField | test_api.py:263-268 | The `for … break` loop over the six keys computes `FirstPresent`. |
| ChapterLookup.ChapterList | test_api.py:247-272 | No contract of its own: the chapter list of a whole response. `ChapterListIff`, `NoDataNoChapters` and `FirstKeyShadowsLater` give its meaning. |
| ChapterLookup.ChapterListIff | test_api.py:247-272 | A response yields list `xs` exactly when `xs` is non-empty and is either `data` itself or the value under the first present key of the `data` object. |
| ChapterLookup.NoDataNoChapters | test_api.py:247-255 | A response that is not an object, or has no `data` field, yields no chapters. |
| ChapterLookup.FirstKeyShadowsLater | test_api.py:264-272 | An unusable value under `lists` hides a good list under `chapters`. |

## Left out

- TLS, the connection, building and sending the request (test_api.py:89-111): network I/O.
- The `recv(1024)` loop that reads the response head (114-119) is left out: it is I/O. `SplitResponse` starts from the bytes it gathered.
- The read-everything loop for chunked bodies (150-165) and the `Content-Length` loop (182-190) are left out: they are I/O. The clean-up starts from the text they produce.
- UTF-8 decoding (123, 169, 190), including `errors='replace'`: a foreign codec. Header and body text are modelled as already-decoded strings, and the decoder's output as bytes. The slices `response_data[:header_end]` and `response_data[header_end+4:]` at lines 123-124 are therefore taken on characters, not bytes: when `find` gives -1, the code drops the last byte, and a decode error follows when that byte ends a multi-byte character (the attempt is then retried, lines 223-227). The model drops the last character instead. `LeakedMarkers.StripRecoversPayloads` is therefore stated on text.
- `json.loads`, printing, the retry loop with `time.sleep(2)` (85-228), and the rest of `process_response_data` (244-301 outside the lookup at 247-272) are left out. `ChapterLookup` starts from an already-parsed `Json` value, whose numbers are integers.
- The Windows console set-up (15-17) is left out.
- `settimeout` (21, 152) is not modelled as time: a timeout is a `Fail` entry in the socket's `plan`.
- `ChunkedReader.ChunkSize`: accepts only hex digits after `strip()`. Python's `int(…, 16)` also accepts a sign, a `0x` prefix and underscores between digits, and it skips the bytes 0x1C-0x1F around the digits, which `bytes.strip()` leaves but `str` counts as whitespace (so `b"\x1c1a\r\n"` reads as 26 in the code). Such lines are treated like any other malformed line, which ends the loop. Chunk extensions (`;name=value`) make `int` raise, so the loop stopping on them is modelled as the code does it.
- `Strings.Lower` and `ResponseHeaders.HeaderMapKeysLower`: `lower()` is modelled for ASCII letters only, not full Unicode case mapping.
- `ChunkedEncoding` encodes bodies without chunk extensions or trailer fields. The decoder ignores anything after the zero chunk's two bytes.
- `ChunkedEncoding.DecodeEncodedExact` and `ChunkedEncoding.DecodesEncodedBody`: the exact round trip is stated only for schedules without failures. Schedules with failures are covered by the prefix property.
- `LeakedMarkers.StripRecoversPayloads`: stated only for payloads with no carriage return. JSON whitespace may contain CRLF, and `LeakedMarkers.DeletesHexBetweenCrlfs` shows what can then go wrong.
- The socket is modelled as a value passed in and returned, not as a shared mutable object.
- The Kotlin activity and Gradle build files of the repository are not part of this model.

=== FILE: chapter_lookup.dfy ===
/**
  How `process_response_data` locates the chapter list in the parsed response:
  the `data` field itself when it is a list, otherwise the value under the first
  of six known keys that the `data` object holds; what it finds is used only
  when it is a non-empty list.
*/
module ChapterLookup {
  import opened Wrappers

  /** A value produced by `json.loads`; numbers are kept as integers. */
  datatype Json =
    | Null
    | Bool(b: bool)
    | Num(n: int)
    | Str(s: string)
    | Arr(items: seq<Json>)
    | Obj(fields: map<string, Json>)

  /** The keys tried, in order, inside the `data` object. */
  const ChapterKeys: seq<string> := ["lists", "chapters", "chapter_list", "list", "items", "directory"]

  /** The value under the first of `keys` that `m` holds; `None` when it holds none of them. */
  function FirstPresent(m: map<string, Json>, keys: seq<string>): (found: Option<Json>)
  {
    if |keys| == 0 then None
    else if keys[0] in m then Some(m[keys[0]])
    else FirstPresent(m, keys[1..])
  }

  /** Nothing is found exactly when no key is present. */
  lemma {:induction false} FirstPresentNone(m: map<string, Json>, keys: seq<string>)
    ensures FirstPresent(m, keys) == None <==> forall i :: 0 <= i < |keys| ==> keys[i] !in m
  {
    if |keys| > 0 {
      FirstPresentNone(m, keys[1..]);
      assert forall i :: 1 <= i < |keys| ==> keys[1..][i - 1] == keys[i];
    }
  }

  /** What is found is the value under the earliest present key. */
  lemma {:induction false} FirstPresentSome(m: map<string, Json>, keys: seq<string>) returns (i: nat)
    requires FirstPresent(m, keys).Some?
    ensures i < |keys| && keys[i] in m
    ensures forall j :: 0 <= j < i ==> keys[j] !in m
    ensures FirstPresent(m, keys) == Some(m[keys[i]])
  {
    if keys[0] in m {
      i := 0;
    } else {
      var k := FirstPresentSome(m, keys[1..]);
      i := k + 1;
      assert forall j :: 1 <= j <= i ==> keys[j] == keys[1..][j - 1];
    }
  }

  /** Skipping keys known to be absent does not change what is found. */
  lemma {:induction false} FirstPresentSkip(m: map<string, Json>, keys: seq<string>, i: nat)
    requires i <= |keys|
    requires forall j :: 0 <= j < i ==> keys[j] !in m
    ensures FirstPresent(m, keys) == FirstPresent(m, keys[i..])
    decreases i
  {
    if i > 0 {
      assert keys[0] !in m;
      assert forall j :: 0 <= j < i - 1 ==> keys[1..][j] == keys[j + 1];
      FirstPresentSkip(m, keys[1..], i - 1);
      assert keys[1..][i - 1..] == keys[i..];
    }
  }

  /** The `for key in [...]` loop over `data`'s keys, which stops at the first one present. */
  method FindChapterField(chaptersData: map<string, Json>) returns (chapters: Option<Json>)
    ensures chapters == FirstPresent(chaptersData, ChapterKeys)
  {
    chapters := None;
    var i := 0;
    while i < |ChapterKeys|
      invariant 0 <= i <= |ChapterKeys|
      invariant forall j :: 0 <= j < i ==> ChapterKeys[j] !in chaptersData
      invariant chapters == None
    {
      var key := ChapterKeys[i];
      if key in chaptersData {
        chapters := Some(chaptersData[key]);
        FirstPresentSkip(chaptersData, ChapterKeys, i);
        return;
      }
      i := i + 1;
    }
    FirstPresentSkip(chaptersData, ChapterKeys, i);
  }

  /** `chapters` after the `isinstance` chain on `data["data"]`. */
  function Candidate(chaptersData: Json): (chapters: Option<Json>)
  {
    match chaptersData
    case Arr(_) => Some(chaptersData)
    case Obj(m) => FirstPresent(m, ChapterKeys)
    case _ => None
  }

  /** `if chapters and isinstance(chapters, list)`: only a non-empty list is used. */
  function UsableList(chapters: Option<Json>): (list: Option<seq<Json>>)
  {
    match chapters
    case Some(Arr(xs)) => if |xs| > 0 then Some(xs) else None
    case _ => None
  }

  /** The chapter list of a whole response, which must be an object with a `data` field. */
  function ChapterList(response: Json): (list: Option<seq<Json>>)
  {
    if response.Obj? && "data" in response.fields then UsableList(Candidate(response.fields["data"]))
    else None
  }

  /**
    A response yields `xs` exactly when `xs` is non-empty and it is either the
    `data` field itself or the value under the first known key of the `data`
    object.
  */
  lemma ChapterListIff(response: Json, xs: seq<Json>)
    ensures ChapterList(response) == Some(xs) <==>
      (response.Obj? && "data" in response.fields && |xs| > 0
       && (response.fields["data"] == Arr(xs)
           || (response.fields["data"].Obj?
               && FirstPresent(response.fields["data"].fields, ChapterKeys) == Some(Arr(xs)))))
  {
  }

  /** A response that is not an object, or has no `data` field, yields nothing. */
  lemma NoDataNoChapters(response: Json)
    requires !response.Obj? || "data" !in response.fields
    ensures ChapterList(response) == None
  {
  }

  /**
    The loop stops at the first key present even when its value is unusable:
    a later key holding a perfectly good list is never looked at.
  */
  lemma FirstKeyShadowsLater(bad: Json, good: seq<Json>)
    requires !bad.Arr? || |bad.items| == 0
    ensures ChapterList(Obj(map["data" := Obj(map["lists" := bad, "chapters" := Arr(good)])])) == None
  {
    var m := map["lists" := bad, "chapters" := Arr(good)];
    assert "lists" in m && m["lists"] == bad;
    assert ChapterKeys[0] == "lists";
    assert FirstPresent(m, ChapterKeys) == Some(bad);
  }
}

=== FILE: chunked_encoding.dfy ===
/**
  What a well-behaved sender puts on the wire (section 7.1 of RFC 9112, without
  chunk extensions or trailer fields), and what `read_chunked_response` makes of
  it: the payloads in arrival order when nothing goes wrong, and a prefix of them
  when the stream is cut short or a `recv` raises.  A sender may spell each size
  with hex digits of either case and with leading zeros.
*/
module ChunkedEncoding {
  import opened Wrappers
  import opened ChunkedReader

  function HexDigit(d: nat): (b: byte)
    requires d < 16
    ensures IsHexDigit(b) && DigitValue(b) == d
  {
    if d < 10 then (48 + d) as byte else (87 + d) as byte
  }

  /** `h` is one way to write the chunk size `n` (`chunk-size = 1*HEXDIG`):
      hex digits of either case, leading zeros allowed. */
  predicate Spells(h: seq<byte>, n: nat)
  {
    |h| >= 1 && AllHex(h) && HexValue(h) == n
  }

  /** The usual spelling of a chunk size: lower-case hex, no leading zeros. */
  function ToHex(n: nat): (r: seq<byte>)
    ensures |r| >= 1 && AllHex(r)
    decreases n
  {
    if n < 16 then [HexDigit(n)] else ToHex(n / 16) + [HexDigit(n % 16)]
  }

  /** Parsing the usual spelling gives the size back. */
  lemma {:induction false} HexRoundTrip(n: nat)
    ensures HexValue(ToHex(n)) == n
    decreases n
  {
    if n >= 16 {
      HexRoundTrip(n / 16);
      var h := ToHex(n / 16) + [HexDigit(n % 16)];
      assert h[..|h| - 1] == ToHex(n / 16);
    }
  }

  /** Other spellings a sender may use: `1A` for 26, `00a` for 10, `000` for 0. */
  lemma UpperCaseAndLeadingZeros()
    ensures Spells([49, 65], 26) && Spells([48, 48, 97], 10) && Spells([48, 48, 48], 0)
  {
    assert [49, 65][..1] == [49 as byte];
    assert [48, 48, 97][..2] == [48, 48] && [48, 48][..1] == [48 as byte];
    assert [48, 48, 48][..2] == [48, 48];
  }

  const CrlfBytes: seq<byte> := [CR, LF]

  function SizeLine(h: seq<byte>): (line: seq<byte>)
  {
    h + CrlfBytes
  }

  /** One chunk on the wire: its size line `h`, the payload `c`, a CRLF. */
  function EncodeChunk(h: seq<byte>, c: seq<byte>): (wire: seq<byte>)
  {
    SizeLine(h) + c + CrlfBytes
  }

  /** The last chunk, with size line `z`, and an empty trailer section: `z` CRLF CRLF. */
  function LastChunk(z: seq<byte>): (wire: seq<byte>)
  {
    SizeLine(z) + CrlfBytes
  }

  /** A chunked body carrying `chunks` in order, chunk i under the size line
      `sizes[i]`, closed by the last chunk with size line `z`. */
  function Encode(sizes: seq<seq<byte>>, chunks: seq<seq<byte>>, z: seq<byte>): (r: seq<byte>)
    requires |sizes| == |chunks|
    ensures |r| >= |LastChunk(z)|
  {
    if chunks == [] then LastChunk(z) else EncodeChunk(sizes[0], chunks[0]) + Encode(sizes[1..], chunks[1..], z)
  }

  /** The payloads, concatenated in arrival order. */
  function ConcatBytes(chunks: seq<seq<byte>>): (r: seq<byte>)
  {
    if chunks == [] then [] else chunks[0] + ConcatBytes(chunks[1..])
  }

  /** What a sender may write for `chunks`: each chunk non-empty (a zero size
      would end the body) under a size line that spells its length, and a last
      size line that spells zero. */
  predicate WellFormed(sizes: seq<seq<byte>>, chunks: seq<seq<byte>>, z: seq<byte>)
  {
    && |sizes| == |chunks| && Spells(z, 0)
    && forall i :: 0 <= i < |chunks| ==> |chunks[i]| > 0 && Spells(sizes[i], |chunks[i]|)
  }

  /** The usual size lines for `chunks`. */
  function UsualSizes(chunks: seq<seq<byte>>): (sizes: seq<seq<byte>>)
  {
    seq(|chunks|, i requires 0 <= i < |chunks| => ToHex(|chunks[i]|))
  }

  /** The usual encoding of non-empty chunks is one a sender may write. */
  lemma UsualEncodingWellFormed(chunks: seq<seq<byte>>)
    requires forall i :: 0 <= i < |chunks| ==> |chunks[i]| > 0
    ensures WellFormed(UsualSizes(chunks), chunks, ToHex(0))
  {
    forall i | 0 <= i < |chunks| ensures Spells(UsualSizes(chunks)[i], |chunks[i]|) {
      HexRoundTrip(|chunks[i]|);
    }
    HexRoundTrip(0);
  }

  lemma TrimStartAtHex(h: seq<byte>, tail: seq<byte>)
    requires |h| >= 1 && AllHex(h)
    ensures TrimStart(h + tail) == h + tail
  {
    assert !IsSpace((h + tail)[0]);
  }

  lemma TrimStartLf(x: seq<byte>)
    ensures TrimStart([LF] + x) == TrimStart(x)
  {
    var y := [LF] + x;
    assert y[1..] == x;
    assert TrimStart(y) == TrimStart(y[1..]);
  }

  lemma TrimEndCrlf(h: seq<byte>)
    requires |h| >= 1 && AllHex(h)
    ensures TrimEnd(h + CrlfBytes) == h
  {
    assert (h + CrlfBytes)[..|h| + 1] == h + [CR];
    assert (h + [CR])[..|h|] == h;
    assert !IsSpace(h[|h| - 1]);
  }

  /** A size line, possibly preceded by the LF that a one-byte `recv(2)` left
      behind, parses back to its size: `strip()` removes both line breaks. */
  lemma ChunkSizeOfSizeLine(lead: seq<byte>, h: seq<byte>, n: nat)
    requires (lead == [] || lead == [LF]) && Spells(h, n)
    ensures ChunkSize(lead + SizeLine(h)) == Some(n)
  {
    TrimStartAtHex(h, CrlfBytes);
    if lead == [LF] {
      TrimStartLf(h + CrlfBytes);
    }
    TrimEndCrlf(h);
    assert Strip(lead + SizeLine(h)) == h;
  }

  /** The bytes still to arrive at `s` agree with `w` as far as both go: the
      stream is `w` cut short, or `w` followed by anything. */
  predicate Agrees(s: Socket, w: seq<byte>)
  {
    forall i :: 0 <= i < |w| && s.pos + i < |s.input| ==> s.input[s.pos + i] == w[i]
  }

  lemma AgreesPrefix(s: Socket, w: seq<byte>, v: seq<byte>)
    requires Agrees(s, w + v)
    ensures Agrees(s, w)
  {
    forall i | 0 <= i < |w| && s.pos + i < |s.input| ensures s.input[s.pos + i] == w[i] {
      assert (w + v)[i] == w[i];
    }
  }

  lemma AgreesShift(s: Socket, t: Socket, w: seq<byte>, k: nat)
    requires Agrees(s, w) && t.input == s.input && t.pos == s.pos + k && k <= |w|
    ensures Agrees(t, w[k..])
  {
    forall i | 0 <= i < |w| - k && t.pos + i < |t.input| ensures t.input[t.pos + i] == w[k..][i] {
      assert s.input[s.pos + (k + i)] == w[k + i];
    }
  }

  /** A line whose only CR is the one of its closing CRLF. */
  predicate SimpleLine(t: seq<byte>)
  {
    |t| >= 2 && t[|t| - 2] == CR && t[|t| - 1] == LF && forall j :: 0 <= j < |t| - 2 ==> t[j] != CR
  }

  lemma SizeLineSimple(lead: seq<byte>, h: seq<byte>)
    requires (lead == [] || lead == [LF]) && AllHex(h)
    ensures SimpleLine(lead + SizeLine(h))
  {
    var t := lead + SizeLine(h);
    forall j | 0 <= j < |t| - 2 ensures t[j] != CR {
      if j < |lead| { assert t[j] == LF; }
      else { assert t[j] == h[j - |lead|]; }
    }
  }

  /** No line of a stream that agrees with `t` ends before `t` does. */
  lemma NoEarlyLineEnd(s: Socket, t: seq<byte>, k: nat)
    requires SimpleLine(t) && Agrees(s, t) && k < s.pos + |t|
    ensures !LineEndsAt(s.input, s.pos, k)
  {
    if s.pos + 2 <= k <= |s.input| {
      assert s.input[s.pos + (k - 2 - s.pos)] == t[k - 2 - s.pos];
    }
  }

  /** All of `t` arrived: the stream holds `t`, and the line ends where `t` does. */
  lemma WholeLine(s: Socket, t: seq<byte>)
    requires SimpleLine(t) && Agrees(s, t) && s.pos + |t| <= |s.input|
    ensures LineEndsAt(s.input, s.pos, s.pos + |t|) && s.input[s.pos..s.pos + |t|] == t
  {
    assert s.input[s.pos + (|t| - 2)] == t[|t| - 2];
    assert s.input[s.pos + (|t| - 1)] == t[|t| - 1];
    forall i | 0 <= i < |t| ensures s.input[s.pos..s.pos + |t|][i] == t[i] {
      assert s.input[s.pos + i] == t[i];
    }
  }

  /** Reading a size line from a stream that agrees with it: either the whole
      line arrives, or the stream ends before its CRLF does. */
  lemma LineRead(s: Socket, t: seq<byte>)
    requires s.Valid() && SimpleLine(t) && Agrees(s, t)
    ensures var r := ReadSizeLine(s, s.pos);
      r.0.Line? ==> (r.0.line == t && r.1.pos == s.pos + |t|) || (r.1.pos == |s.input| && |r.0.line| < |t|)
    ensures var r := ReadSizeLine(s, s.pos);
      NoFail(s.plan) && s.pos + |t| <= |s.input| ==> r.0 == Line(t) && r.1.pos == s.pos + |t|
  {
    var r := ReadSizeLine(s, s.pos);
    SizeLineEnd(s, s.pos);
    if r.0.Line? {
      var p := r.1.pos;
      if s.pos + |t| <= |s.input| {
        WholeLine(s, t);
        assert p <= s.pos + |t|;
      }
      if p < s.pos + |t| {
        NoEarlyLineEnd(s, t, p);
      }
    }
  }

  /** Reading a payload from a stream that agrees with it: a prefix of it, which
      is the whole payload unless the stream ended first. */
  lemma PayloadRead(s: Socket, c: seq<byte>)
    requires s.Valid() && Agrees(s, c)
    ensures var r := ReadPayload(s, |c|, s.pos);
      r.0.Payload? ==> |r.0.chunk| <= |c| && r.0.chunk == c[..|r.0.chunk|] && (r.0.chunk == c || r.1.pos == |s.input|)
    ensures var r := ReadPayload(s, |c|, s.pos);
      NoFail(s.plan) && s.pos + |c| <= |s.input| ==> r.0 == Payload(c) && r.1.pos == s.pos + |c|
  {
    var r := ReadPayload(s, |c|, s.pos);
    if r.0.Payload? {
      var ch := r.0.chunk;
      forall i | 0 <= i < |ch| ensures ch[i] == c[i] {
        assert ch[i] == s.input[s.pos + i];
      }
      assert ch == c[..|ch|];
    }
  }

  /** After the end of the stream a pass adds nothing. */
  lemma BodyAtEnd(s: Socket, size: nat, data: seq<byte>)
    requires s.Valid() && s.pos == |s.input|
    ensures ChunkBody(s, size, data).data == data && ChunkBody(s, size, data).sock.pos == |s.input|
  {
  }

  /** Once the stream has ended, decoding returns what it already has. */
  lemma DecodeAtEnd(s: Socket, data: seq<byte>)
    requires s.Valid() && s.pos == |s.input|
    ensures DecodeFrom(s, data).0 == data
  {
  }

  /** A size line that cannot be read or parsed ends the loop with the data
      gathered so far: a `recv(1)` that raises, a line that is blank after
      `strip()`, and a line that is not hex all stop the decoder there. */
  lemma BadSizeLineStops(s: Socket, data: seq<byte>)
    requires s.Valid()
    requires var lr := ReadSizeLine(s, s.pos); lr.0.LineFailed? || ChunkSize(lr.0.line).None?
    ensures DecodeFrom(s, data) == (data, ReadSizeLine(s, s.pos).1)
  {
  }

  /** The payload and its CRLF, read from a stream that agrees with them. */
  lemma BodyOnChunk(s: Socket, data: seq<byte>, c: seq<byte>)
    requires s.Valid() && |c| > 0 && Agrees(s, c + CrlfBytes)
    ensures var r := ChunkBody(s, |c|, data);
      |r.data| <= |data| + |c| && r.data == (data + c)[..|r.data|]
    ensures var r := ChunkBody(s, |c|, data);
      r.Continue? ==>
        r.sock.pos == |s.input| || (r.data == data + c && s.pos + |c| + 1 <= r.sock.pos <= s.pos + |c| + 2)
    ensures var r := ChunkBody(s, |c|, data);
      NoFail(s.plan) && s.pos + |c| + 2 <= |s.input| ==>
        && r.Continue? && r.data == data + c && s.pos + |c| + 1 <= r.sock.pos <= s.pos + |c| + 2
        && (s.plan == [] ==> r.sock.pos == s.pos + |c| + 2)
  {
    AgreesPrefix(s, c, CrlfBytes);
    PayloadRead(s, c);
    var pr := ReadPayload(s, |c|, s.pos);
    if pr.0.Payload? {
      assert (data + c)[..|data| + |pr.0.chunk|] == data + pr.0.chunk;
    }
  }

  /** One pass over a stream that agrees with a size line `t` for `c`, then `c`
      and its CRLF. */
  lemma StepOnLine(s: Socket, data: seq<byte>, t: seq<byte>, c: seq<byte>)
    requires s.Valid() && |c| > 0 && SimpleLine(t) && ChunkSize(t) == Some(|c|)
    requires Agrees(s, t + (c + CrlfBytes))
    ensures var r := ChunkStep(s, data);
      |r.data| <= |data| + |c| && r.data == (data + c)[..|r.data|]
    ensures var r := ChunkStep(s, data);
      r.Continue? ==>
        r.sock.pos == |s.input| || (r.data == data + c && s.pos + |t| + |c| + 1 <= r.sock.pos <= s.pos + |t| + |c| + 2)
    ensures var r := ChunkStep(s, data);
      NoFail(s.plan) && s.pos + |t| + |c| + 2 <= |s.input| ==>
        && r.Continue? && r.data == data + c && s.pos + |t| + |c| + 1 <= r.sock.pos <= s.pos + |t| + |c| + 2
        && (s.plan == [] ==> r.sock.pos == s.pos + |t| + |c| + 2)
  {
    AgreesPrefix(s, t, c + CrlfBytes);
    LineRead(s, t);
    var lr := ReadSizeLine(s, s.pos);
    var s1 := lr.1;
    var r := ChunkStep(s, data);
    if lr.0.LineFailed? || lr.0.line == [] {
      assert r == Stop(data, s1);
    } else if lr.0.line == t && s1.pos == s.pos + |t| {
      assert r == ChunkBody(s1, |c|, data);
      AgreesShift(s, s1, t + (c + CrlfBytes), |t|);
      assert (t + (c + CrlfBytes))[|t|..] == c + CrlfBytes;
      BodyOnChunk(s1, data, c);
    } else {
      var size := ChunkSize(lr.0.line);
      if size.None? {
        assert r == Stop(data, s1);
      } else {
        assert r == ChunkBody(s1, size.value, data);
        BodyAtEnd(s1, size.value, data);
      }
    }
  }

  /** What one pass over an encoded chunk `c` (its encoding `f` agreeing with the
      stream at `s`) can have done: added a prefix of `c`, and gone on only at
      the end of the stream or with all of `c`, `f` consumed but for a final LF;
      with every read succeeding and all of `f` there, the latter. */
  predicate ChunkStepShape(s: Socket, data: seq<byte>, f: seq<byte>, c: seq<byte>, step: Step)
  {
    && step.sock.Valid() && step.sock.input == s.input
    && |step.data| <= |data| + |c| && step.data == (data + c)[..|step.data|]
    && (step.Continue? ==>
          step.sock.pos == |s.input| || (step.data == data + c && s.pos + |f| - 1 <= step.sock.pos <= s.pos + |f|))
    && (NoFail(s.plan) && s.pos + |f| <= |s.input| ==>
          && step.Continue? && step.data == data + c && s.pos + |f| - 1 <= step.sock.pos <= s.pos + |f|
          && NoFail(step.sock.plan) && (s.plan == [] ==> step.sock.pos == s.pos + |f| && step.sock.plan == []))
  }

  /** One pass over a stream that agrees with one encoded chunk `c`, after the
      `lead` a previous short `recv(2)` may have left. */
  lemma StepOnChunk(s: Socket, data: seq<byte>, lead: seq<byte>, h: seq<byte>, c: seq<byte>)
    requires s.Valid() && (lead == [] || lead == [LF]) && |c| > 0 && Spells(h, |c|)
    requires Agrees(s, lead + EncodeChunk(h, c))
    ensures ChunkStepShape(s, data, lead + EncodeChunk(h, c), c, ChunkStep(s, data))
  {
    var t := lead + SizeLine(h);
    assert lead + EncodeChunk(h, c) == t + (c + CrlfBytes);
    SizeLineSimple(lead, h);
    ChunkSizeOfSizeLine(lead, h, |c|);
    StepOnLine(s, data, t, c);
  }

  /** A zero size ends the loop: `recv(2)` takes the final CRLF (or what of it
      arrives), and nothing is added. */
  lemma ZeroBody(s: Socket, data: seq<byte>)
    requires s.Valid()
    ensures var r := ChunkBody(s, 0, data);
      r.Stop? && r.data == data && r.sock.pos <= s.pos + 2
    ensures var r := ChunkBody(s, 0, data);
      NoFail(s.plan) && s.pos + 2 <= |s.input| ==>
        s.pos + 1 <= r.sock.pos && (s.plan == [] ==> r.sock.pos == s.pos + 2)
  {
  }

  /** One pass over a stream that agrees with a size line `t` of zero, then a
      CRLF: nothing is added, and the loop stops unless the stream has ended. */
  lemma StepOnLastLine(s: Socket, data: seq<byte>, t: seq<byte>)
    requires s.Valid() && SimpleLine(t) && ChunkSize(t) == Some(0)
    requires Agrees(s, t + CrlfBytes)
    ensures var r := ChunkStep(s, data);
      r.data == data && (r.Continue? ==> r.sock.pos == |s.input|)
    ensures var r := ChunkStep(s, data);
      NoFail(s.plan) && s.pos + |t| + 2 <= |s.input| ==>
        && r.Stop? && s.pos + |t| + 1 <= r.sock.pos <= s.pos + |t| + 2
        && (s.plan == [] ==> r.sock.pos == s.pos + |t| + 2)
  {
    AgreesPrefix(s, t, CrlfBytes);
    LineRead(s, t);
    var lr := ReadSizeLine(s, s.pos);
    var r := ChunkStep(s, data);
    if lr.0.LineFailed? || lr.0.line == [] {
      assert r == Stop(data, lr.1);
    } else if lr.0.line == t && lr.1.pos == s.pos + |t| {
      assert r == ChunkBody(lr.1, 0, data);
      ZeroBody(lr.1, data);
    } else {
      var size := ChunkSize(lr.0.line);
      if size.None? {
        assert r == Stop(data, lr.1);
      } else {
        assert r == ChunkBody(lr.1, size.value, data);
        BodyAtEnd(lr.1, size.value, data);
      }
    }
  }

  /** One pass over a stream that agrees with the last chunk. */
  lemma StepOnLastChunk(s: Socket, data: seq<byte>, lead: seq<byte>, z: seq<byte>)
    requires s.Valid() && (lead == [] || lead == [LF]) && Spells(z, 0)
    requires Agrees(s, lead + LastChunk(z))
    ensures var r := ChunkStep(s, data);
      r.data == data && (r.Continue? ==> r.sock.pos == |s.input|)
    ensures var r := ChunkStep(s, data); var w := lead + LastChunk(z);
      NoFail(s.plan) && s.pos + |w| <= |s.input| ==>
        && r.Stop? && s.pos + |w| - 1 <= r.sock.pos <= s.pos + |w|
        && (s.plan == [] ==> r.sock.pos == s.pos + |w|)
  {
    var t := lead + SizeLine(z);
    assert lead + LastChunk(z) == t + CrlfBytes;
    SizeLineSimple(lead, z);
    ChunkSizeOfSizeLine(lead, z, 0);
    StepOnLastLine(s, data, t);
  }

  /** A prefix of `a` is a prefix of `a + b`. */
  lemma PrefixExtends(x: seq<byte>, a: seq<byte>, b: seq<byte>)
    requires |x| <= |a| && x == a[..|x|]
    ensures |x| <= |a + b| && x == (a + b)[..|x|]
  {
    assert (a + b)[..|x|] == a[..|x|];
  }

  /** What is left of `f + e` once `f` is consumed, but for a final LF of `f`
      that a short `recv(2)` left behind. */
  lemma ShiftPastChunk(f: seq<byte>, e: seq<byte>, lead: seq<byte>)
    requires |f| >= 1 && f[|f| - 1] == LF && (lead == [] || lead == [LF])
    ensures (f + e)[|f| - |lead|..] == lead + e
  {
  }

  lemma WellFormedTail(sizes: seq<seq<byte>>, chunks: seq<seq<byte>>, z: seq<byte>)
    requires chunks != [] && WellFormed(sizes, chunks, z)
    ensures |chunks[0]| > 0 && Spells(sizes[0], |chunks[0]|) && WellFormed(sizes[1..], chunks[1..], z)
  {
    forall i | 0 <= i < |chunks| - 1 ensures |chunks[1..][i]| > 0 && Spells(sizes[1..][i], |chunks[1..][i]|) {
      assert chunks[1..][i] == chunks[i + 1] && sizes[1..][i] == sizes[i + 1];
    }
  }

  /** Decoding a stream that agrees with the last chunk. */
  lemma DecodeLastChunk(s: Socket, data: seq<byte>, lead: seq<byte>, z: seq<byte>)
    requires s.Valid() && (lead == [] || lead == [LF]) && Spells(z, 0)
    requires Agrees(s, lead + LastChunk(z))
    ensures DecodeFrom(s, data).0 == data
    ensures var r := DecodeFrom(s, data); var w := lead + LastChunk(z);
      NoFail(s.plan) && s.pos + |w| <= |s.input| ==>
        && s.pos + |w| - 1 <= r.1.pos <= s.pos + |w|
        && (s.plan == [] ==> r.1.pos == s.pos + |w|)
  {
    var step := ChunkStep(s, data);
    StepOnLastChunk(s, data, lead, z);
    if step.Continue? {
      assert DecodeFrom(s, data) == DecodeFrom(step.sock, step.data);
      DecodeAtEnd(step.sock, step.data);
    } else {
      assert DecodeFrom(s, data) == (step.data, step.sock);
    }
  }

  lemma ConcatCons(data: seq<byte>, chunks: seq<seq<byte>>)
    requires chunks != []
    ensures data + ConcatBytes(chunks) == (data + chunks[0]) + ConcatBytes(chunks[1..])
  {
  }

  lemma EncodeCons(lead: seq<byte>, sizes: seq<seq<byte>>, chunks: seq<seq<byte>>, z: seq<byte>)
    requires chunks != [] && |sizes| == |chunks|
    ensures lead + Encode(sizes, chunks, z) == (lead + EncodeChunk(sizes[0], chunks[0])) + Encode(sizes[1..], chunks[1..], z)
    ensures var f := lead + EncodeChunk(sizes[0], chunks[0]); |f| >= 1 && f[|f| - 1] == LF
  {
    var c := EncodeChunk(sizes[0], chunks[0]);
    var e := Encode(sizes[1..], chunks[1..], z);
    assert Encode(sizes, chunks, z) == c + e;
    assert c[|c| - 1] == LF;
    Associative(lead, c, e);
  }

  lemma Associative(a: seq<byte>, b: seq<byte>, c: seq<byte>)
    ensures a + (b + c) == (a + b) + c
  {
  }

  /** Where the rest of the stream stands once a pass has consumed `f`, or all
      of `f` but its final LF. */
  lemma NextLead(s: Socket, f: seq<byte>, e: seq<byte>, t: Socket) returns (lead1: seq<byte>)
    requires Agrees(s, f + e) && |f| >= 1 && f[|f| - 1] == LF
    requires t.input == s.input && s.pos + |f| - 1 <= t.pos <= s.pos + |f|
    ensures (lead1 == [] || lead1 == [LF]) && (t.pos == s.pos + |f| ==> lead1 == [])
    ensures Agrees(t, lead1 + e) && t.pos + |lead1 + e| == s.pos + |f + e|
  {
    lead1 := if t.pos == s.pos + |f| then [] else [LF];
    AgreesShift(s, t, f + e, |f| - |lead1|);
    ShiftPastChunk(f, e, lead1);
  }

  /** One pass over the first chunk of an encoded body: what it adds, and, when
      the loop goes on, the `lead1` with which the rest of the body agrees. */
  lemma ChunkAdvance(s: Socket, data: seq<byte>, lead: seq<byte>,
                     sizes: seq<seq<byte>>, chunks: seq<seq<byte>>, z: seq<byte>, step: Step)
    returns (lead1: seq<byte>)
    requires s.Valid() && (lead == [] || lead == [LF]) && chunks != [] && WellFormed(sizes, chunks, z)
    requires Agrees(s, lead + Encode(sizes, chunks, z))
    requires ChunkStepShape(s, data, lead + EncodeChunk(sizes[0], chunks[0]), chunks[0], step)
    ensures WellFormed(sizes[1..], chunks[1..], z)
    ensures data + ConcatBytes(chunks) == (data + chunks[0]) + ConcatBytes(chunks[1..])
    ensures |step.data| <= |data + ConcatBytes(chunks)| && step.data == (data + ConcatBytes(chunks))[..|step.data|]
    ensures step.Continue? && step.sock.pos < |s.input| ==>
      && step.data == data + chunks[0] && (lead1 == [] || lead1 == [LF])
      && Agrees(step.sock, lead1 + Encode(sizes[1..], chunks[1..], z))
      && step.sock.pos + |lead1 + Encode(sizes[1..], chunks[1..], z)| == s.pos + |lead + Encode(sizes, chunks, z)|
    ensures NoFail(s.plan) && s.pos + |lead + Encode(sizes, chunks, z)| <= |s.input| ==>
      && step.Continue? && step.sock.pos < |s.input| && NoFail(step.sock.plan)
      && (s.plan == [] ==> lead1 == [] && step.sock.plan == [])
  {
    WellFormedTail(sizes, chunks, z);
    ConcatCons(data, chunks);
    EncodeCons(lead, sizes, chunks, z);
    PrefixExtends(step.data, data + chunks[0], ConcatBytes(chunks[1..]));
    if step.Continue? && step.sock.pos < |s.input| {
      lead1 := NextLead(s, lead + EncodeChunk(sizes[0], chunks[0]), Encode(sizes[1..], chunks[1..], z), step.sock);
    } else {
      lead1 := [];
    }
  }

  /** The first pass over an encoded body has the shape of a pass over its first chunk. */
  lemma FirstStep(s: Socket, data: seq<byte>, lead: seq<byte>,
                  sizes: seq<seq<byte>>, chunks: seq<seq<byte>>, z: seq<byte>)
    requires s.Valid() && (lead == [] || lead == [LF]) && chunks != [] && WellFormed(sizes, chunks, z)
    requires Agrees(s, lead + Encode(sizes, chunks, z))
    ensures ChunkStepShape(s, data, lead + EncodeChunk(sizes[0], chunks[0]), chunks[0], ChunkStep(s, data))
  {
    EncodeCons(lead, sizes, chunks, z);
    AgreesPrefix(s, lead + EncodeChunk(sizes[0], chunks[0]), Encode(sizes[1..], chunks[1..], z));
    WellFormedTail(sizes, chunks, z);
    StepOnChunk(s, data, lead, sizes[0], chunks[0]);
  }

  /** Decoding a stream that agrees with `lead` and then an encoded body yields
      a prefix of the payloads, whatever the reads deliver or raise. */
  lemma {:induction false} DecodeEncodedPrefix(s: Socket, data: seq<byte>, lead: seq<byte>,
                                               sizes: seq<seq<byte>>, chunks: seq<seq<byte>>, z: seq<byte>)
    requires s.Valid() && (lead == [] || lead == [LF]) && WellFormed(sizes, chunks, z)
    requires Agrees(s, lead + Encode(sizes, chunks, z))
    ensures var r := DecodeFrom(s, data); var full := data + ConcatBytes(chunks);
      |r.0| <= |full| && r.0 == full[..|r.0|]
    decreases |chunks|
  {
    if chunks == [] {
      DecodeLastChunk(s, data, lead, z);
      assert data + ConcatBytes(chunks) == data;
    } else {
      var step := ChunkStep(s, data);
      FirstStep(s, data, lead, sizes, chunks, z);
      var lead1 := ChunkAdvance(s, data, lead, sizes, chunks, z, step);
      if step.Continue? && step.sock.pos < |s.input| {
        DecodeEncodedPrefix(step.sock, data + chunks[0], lead1, sizes[1..], chunks[1..], z);
      } else if step.Continue? {
        DecodeAtEnd(step.sock, step.data);
      }
    }
  }

  /** When every `recv` succeeds and the whole body is there, decoding yields
      exactly the payloads and consumes the body: all of it when every read is
      full, all but a final LF otherwise. */
  lemma {:induction false} DecodeEncodedExact(s: Socket, data: seq<byte>, lead: seq<byte>,
                                              sizes: seq<seq<byte>>, chunks: seq<seq<byte>>, z: seq<byte>)
    requires s.Valid() && (lead == [] || lead == [LF]) && WellFormed(sizes, chunks, z)
    requires NoFail(s.plan) && s.pos + |lead + Encode(sizes, chunks, z)| <= |s.input|
    requires Agrees(s, lead + Encode(sizes, chunks, z))
    ensures var r := DecodeFrom(s, data); var w := lead + Encode(sizes, chunks, z);
      && r.0 == data + ConcatBytes(chunks) && s.pos + |w| - 1 <= r.1.pos <= s.pos + |w|
      && (s.plan == [] ==> r.1.pos == s.pos + |w|)
    decreases |chunks|
  {
    if chunks == [] {
      DecodeLastChunk(s, data, lead, z);
      assert data + ConcatBytes(chunks) == data;
    } else {
      var step := ChunkStep(s, data);
      FirstStep(s, data, lead, sizes, chunks, z);
      var lead1 := ChunkAdvance(s, data, lead, sizes, chunks, z, step);
      DecodeEncodedExact(step.sock, data + chunks[0], lead1, sizes[1..], chunks[1..], z);
    }
  }

  /** Well-formed round trip: a response body made of `chunks`, under any size
      lines that spell their lengths, followed by anything, decodes to the
      payloads concatenated in order, whatever sizes the reads deliver,
      provided none raises. */
  lemma DecodesEncodedBody(sizes: seq<seq<byte>>, chunks: seq<seq<byte>>, z: seq<byte>,
                           rest: seq<byte>, plan: seq<Delivery>)
    requires WellFormed(sizes, chunks, z) && NoFail(plan)
    ensures var w := Encode(sizes, chunks, z); var r := DecodeFrom(Socket(w + rest, 0, plan), []);
      && r.0 == ConcatBytes(chunks)
      && |w| - 1 <= r.1.pos <= |w|
      && (plan == [] ==> r.1.pos == |w|)
  {
    var w := Encode(sizes, chunks, z);
    var s := Socket(w + rest, 0, plan);
    assert Agrees(s, w) by {
      forall i | 0 <= i < |w| && s.pos + i < |s.input| ensures s.input[s.pos + i] == w[i] {
      }
    }
    assert [] + w == w;
    assert [] + ConcatBytes(chunks) == ConcatBytes(chunks);
    DecodeEncodedExact(s, [], [], sizes, chunks, z);
  }

  /** Cut short or interrupted: from any stream that is an encoded body cut
      short, whatever reads raise, the result is a prefix of the payloads. */
  lemma DecodesPrefixOfBody(sizes: seq<seq<byte>>, chunks: seq<seq<byte>>, z: seq<byte>,
                            input: seq<byte>, plan: seq<Delivery>)
    requires WellFormed(sizes, chunks, z)
    requires |input| <= |Encode(sizes, chunks, z)| && input == Encode(sizes, chunks, z)[..|input|]
    ensures var r := DecodeFrom(Socket(input, 0, plan), []);
      |r.0| <= |ConcatBytes(chunks)| && r.0 == ConcatBytes(chunks)[..|r.0|]
  {
    var w := Encode(sizes, chunks, z);
    var s := Socket(input, 0, plan);
    assert Agrees(s, w) by {
      forall i | 0 <= i < |w| && s.pos + i < |s.input| ensures s.input[s.pos + i] == w[i] {
      }
    }
    assert [] + w == w;
    assert [] + ConcatBytes(chunks) == ConcatBytes(chunks);
    DecodeEncodedPrefix(s, [], [], sizes, chunks, z);
  }

  /** The usual encoding is covered: decoding it gives the payloads back. */
  lemma DecodesUsualEncoding(chunks: seq<seq<byte>>, plan: seq<Delivery>)
    requires forall i :: 0 <= i < |chunks| ==> |chunks[i]| > 0
    requires NoFail(plan)
    ensures DecodeFrom(Socket(Encode(UsualSizes(chunks), chunks, ToHex(0)), 0, plan), []).0 == ConcatBytes(chunks)
  {
    UsualEncodingWellFormed(chunks);
    var w := Encode(UsualSizes(chunks), chunks, ToHex(0));
    assert w + [] == w;
    DecodesEncodedBody(UsualSizes(chunks), chunks, ToHex(0), [], plan);
  }

  /** When the stream ends part-way through a payload, the part that arrived is
      kept: the payload loop stops on the empty read, and the chunk so far is
      appended. */
  lemma EndOfStreamKeepsPartialChunk(s: Socket, data: seq<byte>, size: nat)
    requires s.Valid() && NoFail(s.plan) && s.pos + size > |s.input|
    ensures ChunkBody(s, size, data) == Continue(data + s.input[s.pos..], Socket(s.input, |s.input|, ChunkBody(s, size, data).sock.plan))
    ensures DecodeFrom(ChunkBody(s, size, data).sock, ChunkBody(s, size, data).data).0 == data + s.input[s.pos..]
  {
    var r := ChunkBody(s, size, data);
    if size == 0 {
      assert false;
    }
    var pr := ReadPayload(s, size, s.pos);
    assert pr.0 == Payload(s.input[s.pos..]);
    DecodeAtEnd(r.sock, r.data);
  }

  /** Whenever a `recv` raises while a payload is being read, the loop stops
      and that chunk's bytes, however many had arrived, are not appended. */
  lemma ExceptionInPayloadDropsChunk(s: Socket, data: seq<byte>, size: nat)
    requires s.Valid() && size > 0 && ReadPayload(s, size, s.pos).0.PayloadFailed?
    ensures ChunkBody(s, size, data) == Stop(data, ReadPayload(s, size, s.pos).1)
  {
  }

  /** When a read raises part-way through a payload, the bytes of that chunk
      which already arrived are lost: only the earlier chunks are returned. */
  lemma ExceptionDropsPartialChunk(s: Socket, data: seq<byte>, size: nat, k: nat)
    requires s.Valid() && 0 < k < size && k <= MaxRead && s.pos + size <= |s.input|
    requires |s.plan| >= 2 && s.plan[0] == Give(k) && s.plan[1] == Fail
    ensures ChunkBody(s, size, data) == Stop(data, Socket(s.input, s.pos + k, s.plan[2..]))
  {
    var first := Recv(s, Min(size, MaxRead));
    assert first.0 == Data(s.input[s.pos..s.pos + k]) && first.1 == Socket(s.input, s.pos + k, s.plan[1..]);
    var second := Recv(first.1, Min(size - k, MaxRead));
    assert second == (Error, Socket(s.input, s.pos + k, s.plan[2..]));
    assert ReadPayload(first.1, size - k, s.pos) == (PayloadFailed, second.1);
    assert ReadPayload(s, size, s.pos) == (PayloadFailed, second.1);
  }
}

=== FILE: chunked_reader.dfy ===
/**
  The chunked body reader of `read_chunked_response`: it decodes the chunked
  transfer coding of HTTP/1.1 (section 7.1 of RFC 9112) from a socket.

  The socket is a value: the bytes that will arrive, a cursor, and a schedule
  (`plan`) saying how the peer and the network hand them over, one entry per
  `recv` call.  The decoder is stated twice: as functions that follow its loops
  one call at a time (ReadSizeLine, ReadPayload, ChunkStep, DecodeFrom) and as the
  method ReadChunked, with the nested `while` loops of the Python, proved equal to them.
*/
module ChunkedReader {
  import opened Wrappers

  newtype byte = b: int | 0 <= b < 256

  const CR: byte := 13
  const LF: byte := 10
  /** The largest `recv` the payload loop asks for. */
  const MaxRead: nat := 8192

  /** How one `recv(n)` call behaves: hand over `count` bytes (clamped to what
      the call may return), or raise a timeout or another socket error. */
  datatype Delivery = Give(count: nat) | Fail

  /** The bytes still to arrive are `input[pos..]`; `plan` drives the next calls
      to `recv`, and once it is used up every call hands over all it may. */
  datatype Socket = Socket(input: seq<byte>, pos: nat, plan: seq<Delivery>)
  {
    predicate Valid() { pos <= |input| }
  }

  /** A schedule in which no call raises. */
  predicate NoFail(plan: seq<Delivery>)
  {
    forall i :: 0 <= i < |plan| ==> plan[i].Give?
  }

  /** What `recv` returned: some bytes (empty at end of stream) or an exception. */
  datatype Received = Data(bytes: seq<byte>) | Error

  function Min(a: int, b: int): (m: int) { if a <= b then a else b }

  /** `sock.recv(n)`: between 1 and `min(n, remaining)` bytes, none at end of
      stream, or an error, as the head of the plan says. */
  function Recv(s: Socket, n: nat): (r: (Received, Socket))
    requires s.Valid() && n >= 1
    ensures r.1.Valid() && r.1.input == s.input && r.1.pos >= s.pos
    ensures r.0.Data? ==> r.1.pos == s.pos + |r.0.bytes| && r.0.bytes == s.input[s.pos..r.1.pos]
    ensures r.0.Data? ==> |r.0.bytes| <= n && (r.0.bytes == [] <==> s.pos == |s.input|)
    ensures r.0.Error? ==> r.1.pos == s.pos
    ensures NoFail(s.plan) ==> r.0.Data? && NoFail(r.1.plan)
    ensures s.plan == [] ==> r.1.plan == [] && r.0 == Data(s.input[s.pos..s.pos + Min(n, |s.input| - s.pos)])
  {
    var rest := if s.plan == [] then [] else s.plan[1..];
    if s.plan != [] && s.plan[0].Fail? then
      (Error, s.(plan := rest))
    else
      var available := Min(n, |s.input| - s.pos);
      var k := if s.plan == [] || available == 0 then available
               else if s.plan[0].count == 0 then 1
               else Min(s.plan[0].count, available);
      (Data(s.input[s.pos..s.pos + k]), Socket(s.input, s.pos + k, rest))
  }

  /** `line.endswith(b"\r\n")`. */
  predicate EndsWithCrlf(line: seq<byte>)
  {
    |line| >= 2 && line[|line| - 2] == CR && line[|line| - 1] == LF
  }

  /** A line that started at `start` in `input` would end with CRLF at `k`. */
  predicate LineEndsAt(input: seq<byte>, start: int, k: int)
  {
    0 <= start && start + 2 <= k <= |input| && input[k - 2] == CR && input[k - 1] == LF
  }

  lemma EndsWithCrlfAt(input: seq<byte>, start: nat, k: nat)
    requires start <= k <= |input|
    ensures EndsWithCrlf(input[start..k]) <==> LineEndsAt(input, start, k)
  {
  }

  /** Outcome of reading a chunk-size line. */
  datatype LineRead = Line(line: seq<byte>) | LineFailed

  /** The size-line loop: `recv(1)` until the line ends with CRLF, stopping early at
      end of stream.  The line read so far is `s.input[start..s.pos]`. */
  function ReadSizeLine(s: Socket, start: nat): (r: (LineRead, Socket))
    requires start <= s.pos <= |s.input|
    ensures r.1.Valid() && r.1.input == s.input && r.1.pos >= s.pos
    ensures r.0.Line? ==> r.0.line == s.input[start..r.1.pos]
    ensures NoFail(s.plan) ==> r.0.Line? && NoFail(r.1.plan)
    ensures s.plan == [] ==> r.1.plan == []
    decreases |s.input| - s.pos
  {
    var line := s.input[start..s.pos];
    if EndsWithCrlf(line) then (Line(line), s)
    else
      var (got, s') := Recv(s, 1);
      match got
      case Error => (LineFailed, s')
      case Data(b) => if b == [] then (Line(line), s') else ReadSizeLine(s', start)
  }

  /** The size line ends at the FIRST CRLF after `start`, unless the stream ended
      before one arrived. */
  lemma {:induction false} SizeLineEnd(s: Socket, start: nat)
    requires start <= s.pos <= |s.input|
    requires forall k :: start <= k <= s.pos - 1 ==> !LineEndsAt(s.input, start, k)
    ensures var r := ReadSizeLine(s, start);
      r.0.Line? ==>
        && (LineEndsAt(s.input, start, r.1.pos) || r.1.pos == |s.input|)
        && forall k :: start <= k < r.1.pos ==> !LineEndsAt(s.input, start, k)
    decreases |s.input| - s.pos
  {
    EndsWithCrlfAt(s.input, start, s.pos);
    if !LineEndsAt(s.input, start, s.pos) {
      var rr := Recv(s, 1);
      if rr.0.Data? && rr.0.bytes != [] {
        SizeLineEnd(rr.1, start);
      }
    }
  }

  /** ASCII whitespace as `bytes.strip()` removes it: space, tab, LF, VT, FF, CR. */
  predicate IsSpace(b: byte) { b == 32 || 9 <= b <= 13 }

  function TrimStart(s: seq<byte>): (r: seq<byte>)
    ensures |r| <= |s| && r == s[|s| - |r|..]
    ensures r != [] ==> !IsSpace(r[0])
    ensures forall i :: 0 <= i < |s| - |r| ==> IsSpace(s[i])
  {
    if s != [] && IsSpace(s[0]) then TrimStart(s[1..]) else s
  }

  function TrimEnd(s: seq<byte>): (r: seq<byte>)
    ensures |r| <= |s| && r == s[..|r|]
    ensures r != [] ==> !IsSpace(r[|r| - 1])
    ensures forall i :: |r| <= i < |s| ==> IsSpace(s[i])
  {
    if s != [] && IsSpace(s[|s| - 1]) then TrimEnd(s[..|s| - 1]) else s
  }

  /** `bytes.strip()`. */
  function Strip(s: seq<byte>): (r: seq<byte>)
  {
    TrimEnd(TrimStart(s))
  }

  predicate IsHexDigit(b: byte)
  {
    48 <= b <= 57 || 65 <= b <= 70 || 97 <= b <= 102
  }

  predicate AllHex(s: seq<byte>)
  {
    forall i :: 0 <= i < |s| ==> IsHexDigit(s[i])
  }

  function DigitValue(b: byte): (d: nat)
    requires IsHexDigit(b)
    ensures d < 16
  {
    if b <= 57 then (b - 48) as nat
    else if b <= 70 then (b - 55) as nat
    else (b - 87) as nat
  }

  /** Value of a string of hexadecimal digits, most significant first. */
  function HexValue(s: seq<byte>): (v: nat)
    requires AllHex(s)
  {
    if s == [] then 0 else HexValue(s[..|s| - 1]) * 16 + DigitValue(s[|s| - 1])
  }

  /** `int(size_line.strip().decode('ascii'), 16)`, with every way it can fail
      (an empty line, a byte outside ASCII, a character that is not a hex digit)
      folded into None, since each of them ends the loop the same way. */
  function ChunkSize(line: seq<byte>): (size: Option<nat>)
  {
    var text := Strip(line);
    if text != [] && AllHex(text) then Some(HexValue(text)) else None
  }

  /** Outcome of reading a chunk's payload. */
  datatype PayloadRead = Payload(chunk: seq<byte>) | PayloadFailed

  /** The payload loop: `recv(min(remaining, 8192))` until `remaining` bytes have
      arrived or the stream ends.  The payload gathered so far is
      `s.input[start..s.pos]`. */
  function ReadPayload(s: Socket, remaining: nat, start: nat): (r: (PayloadRead, Socket))
    requires start <= s.pos <= |s.input|
    ensures r.1.Valid() && r.1.input == s.input && s.pos <= r.1.pos <= s.pos + remaining
    ensures r.0.Payload? ==> r.0.chunk == s.input[start..r.1.pos]
    ensures r.0.Payload? ==> r.1.pos == s.pos + remaining || r.1.pos == |s.input|
    ensures NoFail(s.plan) ==> r.0.Payload? && NoFail(r.1.plan)
    ensures s.plan == [] ==> r.1.plan == []
    decreases remaining
  {
    if remaining == 0 then (Payload(s.input[start..s.pos]), s)
    else
      var (got, s') := Recv(s, Min(remaining, MaxRead));
      match got
      case Error => (PayloadFailed, s')
      case Data(b) =>
        if b == [] then (Payload(s.input[start..s.pos]), s')
        else ReadPayload(s', remaining - |b|, start)
  }

  /** One pass of the outer loop: whether to go on, with the bytes decoded so far. */
  datatype Step = Continue(data: seq<byte>, sock: Socket) | Stop(data: seq<byte>, sock: Socket)

  /** One pass of the outer loop of `read_chunked_response`: read a size line and
      parse it; an error, an empty line or a line that is not hex ends the loop. */
  function ChunkStep(s: Socket, data: seq<byte>): (r: Step)
    requires s.Valid()
    ensures r.sock.Valid() && r.sock.input == s.input && r.sock.pos >= s.pos
    ensures r.Continue? ==> r.sock.pos > s.pos
    ensures data <= r.data
    ensures r.data == data || |r.data| - |data| < r.sock.pos - s.pos
    ensures NoFail(s.plan) ==> NoFail(r.sock.plan)
    ensures s.plan == [] ==> r.sock.plan == []
  {
    var lineRead := ReadSizeLine(s, s.pos);
    if lineRead.0.LineFailed? || lineRead.0.line == [] then Stop(data, lineRead.1)
    else
      var size := ChunkSize(lineRead.0.line);
      if size.None? then Stop(data, lineRead.1) else ChunkBody(lineRead.1, size.value, data)
  }

  /** The rest of the pass, once the size is known: a zero size ends the loop after
      `recv(2)`; otherwise the payload is read and appended, then `recv(2)` skips
      its CRLF.  An exception while the payload is read loses the partial chunk;
      an end of stream keeps it. */
  function ChunkBody(s: Socket, size: nat, data: seq<byte>): (r: Step)
    requires s.Valid()
    ensures r.sock.Valid() && r.sock.input == s.input && r.sock.pos >= s.pos
    ensures data <= r.data
    ensures |r.data| - |data| <= r.sock.pos - s.pos
    ensures NoFail(s.plan) ==> NoFail(r.sock.plan)
    ensures s.plan == [] ==> r.sock.plan == []
  {
    if size == 0 then Stop(data, Recv(s, 2).1)
    else
      var payloadRead := ReadPayload(s, size, s.pos);
      if payloadRead.0.PayloadFailed? then Stop(data, payloadRead.1)
      else
        var chunk := payloadRead.0.chunk;
        var trailer := Recv(payloadRead.1, 2);
        if trailer.0.Error? then Stop(data + chunk, trailer.1)
        else Continue(data + chunk, trailer.1)
  }

  /** The outer loop, from socket `s` with `data` already decoded.  It always
      returns: there is no failure result, only the bytes gathered so far, and
      they are never more than the bytes it consumed. */
  function DecodeFrom(s: Socket, data: seq<byte>): (r: (seq<byte>, Socket))
    requires s.Valid()
    ensures r.1.Valid() && r.1.input == s.input && r.1.pos >= s.pos
    ensures data <= r.0
    ensures |r.0| - |data| <= r.1.pos - s.pos
    ensures NoFail(s.plan) ==> NoFail(r.1.plan)
    ensures s.plan == [] ==> r.1.plan == []
    decreases |s.input| - s.pos
  {
    var step := ChunkStep(s, data);
    if step.Stop? then (step.data, step.sock) else DecodeFrom(step.sock, step.data)
  }

  lemma SliceSplit(s: seq<byte>, i: nat, j: nat, k: nat)
    requires i <= j <= k <= |s|
    ensures s[i..k] == s[i..j] + s[j..k]
  {
  }

  /** The size-line loop of `read_chunked_response` (lines 27-32): `recv(1)` until
      the line ends with CRLF or the stream ends; `failed` when `recv` raised. */
  method RecvSizeLine(s0: Socket) returns (sizeLine: seq<byte>, failed: bool, sock: Socket)
    requires s0.Valid()
    ensures failed ==> ReadSizeLine(s0, s0.pos) == (LineFailed, sock)
    ensures !failed ==> ReadSizeLine(s0, s0.pos) == (Line(sizeLine), sock)
  {
    sizeLine, failed, sock := [], false, s0;
    while !EndsWithCrlf(sizeLine)
      invariant s0.pos <= sock.pos <= |sock.input| && sock.input == s0.input
      invariant sizeLine == sock.input[s0.pos..sock.pos]
      invariant ReadSizeLine(sock, s0.pos) == ReadSizeLine(s0, s0.pos)
      decreases |sock.input| - sock.pos
    {
      ghost var before := sock;
      var received := Recv(sock, 1);
      var got := received.0;
      sock := received.1;
      if got.Error? {
        failed := true;
        return;
      }
      if got.bytes == [] {
        return;
      }
      SliceSplit(sock.input, s0.pos, before.pos, sock.pos);
      sizeLine := sizeLine + got.bytes;
    }
  }

  /** The payload loop of `read_chunked_response` (lines 49-56): read `size` bytes,
      looping over partial reads, until they are all there or the stream ends;
      `failed` when `recv` raised. */
  method RecvPayload(s0: Socket, size: nat) returns (chunk: seq<byte>, failed: bool, sock: Socket)
    requires s0.Valid()
    ensures failed ==> ReadPayload(s0, size, s0.pos) == (PayloadFailed, sock)
    ensures !failed ==> ReadPayload(s0, size, s0.pos) == (Payload(chunk), sock)
  {
    chunk, failed, sock := [], false, s0;
    var remaining: nat := size;
    while remaining > 0
      invariant s0.pos <= sock.pos <= |sock.input| && sock.input == s0.input
      invariant chunk == sock.input[s0.pos..sock.pos]
      invariant ReadPayload(sock, remaining, s0.pos) == ReadPayload(s0, size, s0.pos)
      decreases remaining
    {
      ghost var before := sock;
      var received := Recv(sock, Min(remaining, MaxRead));
      var got := received.0;
      sock := received.1;
      if got.Error? {
        failed := true;
        return;
      }
      if got.bytes == [] {
        return;
      }
      SliceSplit(sock.input, s0.pos, before.pos, sock.pos);
      chunk := chunk + got.bytes;
      remaining := remaining - |got.bytes|;
    }
  }

  /** `read_chunked_response(sock)`: the outer loop over chunks.  It returns the
      decoded body and the socket as the last `recv` left it, and is exactly the
      function DecodeFrom started with no data. */
  method ReadChunked(sock0: Socket) returns (data: seq<byte>, sock: Socket)
    requires sock0.Valid()
    ensures (data, sock) == DecodeFrom(sock0, [])
  {
    data, sock := [], sock0;
    var running := true;
    while running
      invariant sock.Valid() && sock.input == sock0.input
      invariant running ==> DecodeFrom(sock, data) == DecodeFrom(sock0, [])
      invariant !running ==> (data, sock) == DecodeFrom(sock0, [])
      decreases |sock.input| - sock.pos + (if running then 1 else 0)
    {
      ghost var start := sock;
      var sizeLine, failed;
      sizeLine, failed, sock := RecvSizeLine(sock);
      if failed || sizeLine == [] {
        running := false;
      } else {
        var size := ChunkSize(sizeLine);
        if size.None? {
          running := false;
        } else if size.value == 0 {
          // The last chunk: skip the CRLF after it and stop.
          sock := Recv(sock, 2).1;
          running := false;
        } else {
          ghost var s1 := sock;
          var chunk;
          chunk, failed, sock := RecvPayload(sock, size.value);
          if failed {
            running := false;
          } else {
            data := data + chunk;
            // Skip the CRLF that ends the payload.
            var received := Recv(sock, 2);
            sock := received.1;
            if received.0.Error? {
              running := false;
            }
          }
        }
      }
    }
  }
}

=== FILE: json_repair.dfy ===
/**
  `try_fix_json`: the repair attempted when a decoded body does not parse as
  JSON.  It cuts the text after its last `}` and appends the `]` and `}` that
  the kept text leaves unclosed, counting brackets without regard to strings.
*/
module JsonRepair {
  import opened Wrappers

  /** `s.count(c)` for a single character: how often `c` occurs in `s`. */
  function Count(s: string, c: char): (k: nat)
  {
    multiset(s)[c]
  }

  /** A text made of one character only holds that character. */
  lemma {:induction false} CountUniform(r: string, c: char)
    requires forall i :: 0 <= i < |r| ==> r[i] == c
    ensures forall d :: Count(r, d) == if d == c then |r| else 0
  {
    if |r| > 0 {
      var t := r[..|r| - 1];
      CountUniform(t, c);
      assert r == t + [c];
      assert multiset(r) == multiset(t) + multiset{c};
      assert forall d :: Count(r, d) == Count(t, d) + if d == c then 1 else 0;
    }
  }

  /** `c * n`: a text of length `n` holding `c` and nothing else. */
  function Repeat(c: char, n: nat): (r: string)
    ensures |r| == n
    ensures forall d :: Count(r, d) == if d == c then n else 0
  {
    var r := seq(n, _ => c);
    CountUniform(r, c);
    r
  }

  /** Every character of `c * n` is `c`. */
  lemma RepeatOnly(c: char, n: nat)
    ensures forall i :: 0 <= i < n ==> Repeat(c, n)[i] == c
  {
    var r := Repeat(c, n);
    forall i | 0 <= i < n ensures r[i] == c {
      assert r[i] in multiset(r);
      assert Count(r, r[i]) > 0;
    }
  }

  /** `s.rfind(c)`: the last index holding `c`, or -1. */
  function LastIndexOf(s: string, c: char): (r: int)
    ensures -1 <= r < |s|
    ensures r >= 0 ==> s[r] == c
    ensures forall j :: r < j < |s| ==> s[j] != c
  {
    if s == [] then -1
    else if s[|s| - 1] == c then |s| - 1
    else LastIndexOf(s[..|s| - 1], c)
  }

  /** `max(a, b)`. */
  function Max(a: int, b: int): (m: int)
    ensures m >= a && m >= b && (m == a || m == b)
  {
    if a > b then a else b
  }

  /** `try_fix_json(content)`. */
  function TryFixJson(content: string): (r: Option<string>)
  {
    var lastBrace := LastIndexOf(content, '}');
    if lastBrace > 0 then
      var test := content[..lastBrace + 1];
      var openBrackets := Count(test, '[') - Count(test, ']');
      var openBraces := Count(test, '{') - Count(test, '}');
      Some(test + Repeat(']', Max(0, openBrackets)) + Repeat('}', Max(0, openBraces)))
    else
      None
  }

  /** There is nothing to repair exactly when no `}` stands after the first
      character; a `}` at index 0 alone does not count, since the code asks for
      `last_brace > 0`. */
  lemma TryFixNone(content: string)
    ensures TryFixJson(content).None? <==> forall i :: 0 < i < |content| ==> content[i] != '}'
  {
  }

  /** What the repair keeps: the text up to and including its last `}`, with
      nothing but `]`s and then `}`s after it; a repaired text is never empty,
      so the caller's truth test always passes it on. */
  lemma TryFixShape(content: string)
    requires TryFixJson(content).Some?
    ensures var r := TryFixJson(content).value; var k := LastIndexOf(content, '}');
      && 0 < k && content[..k + 1] <= r
      && (forall i :: k < i < |r| ==> r[i] == ']' || r[i] == '}')
      && (forall i, j :: k < i < j < |r| && r[i] == '}' ==> r[j] == '}')
      && |r| >= 2
  {
    var k := LastIndexOf(content, '}');
    var p := content[..k + 1];
    var a := Repeat(']', Max(0, Count(p, '[') - Count(p, ']')));
    var b := Repeat('}', Max(0, Count(p, '{') - Count(p, '}')));
    RepeatOnly(']', |a|);
    RepeatOnly('}', |b|);
    var r := TryFixJson(content).value;
    assert r == (p + a) + b;
    assert forall i :: |p| <= i < |p| + |a| ==> r[i] == a[i - |p|];
    assert forall i :: |p| + |a| <= i < |r| ==> r[i] == b[i - |p| - |a|];
  }

  /** After the repair no `[` and no `{` is left unclosed, and exactly as many
      closers were added as were missing. */
  lemma TryFixBalanced(content: string)
    requires TryFixJson(content).Some?
    ensures var r := TryFixJson(content).value;
      var p := content[..LastIndexOf(content, '}') + 1];
      && Count(r, '[') <= Count(r, ']')
      && Count(r, '{') <= Count(r, '}')
      && Count(r, ']') == Max(Count(p, '['), Count(p, ']'))
      && Count(r, '}') == Max(Count(p, '{'), Count(p, '}'))
      && Count(r, '[') == Count(p, '[') && Count(r, '{') == Count(p, '{')
  {
    var k := LastIndexOf(content, '}');
    var p := content[..k + 1];
    var a := Repeat(']', Max(0, Count(p, '[') - Count(p, ']')));
    var b := Repeat('}', Max(0, Count(p, '{') - Count(p, '}')));
    var r := TryFixJson(content).value;
    assert r == (p + a) + b;
    assert multiset(r) == multiset(p) + multiset(a) + multiset(b);
    assert Count(a, '[') == 0 && Count(a, '{') == 0 && Count(a, '}') == 0 && Count(a, ']') == |a|;
    assert Count(b, '[') == 0 && Count(b, '{') == 0 && Count(b, ']') == 0 && Count(b, '}') == |b|;
  }

  /** A balanced text that ends in its last `}` is left as it is. */
  lemma BalancedUnchanged(t: string)
    requires |t| >= 2 && t[|t| - 1] == '}'
    requires Count(t, '[') <= Count(t, ']') && Count(t, '{') <= Count(t, '}')
    ensures TryFixJson(t) == Some(t)
  {
    assert LastIndexOf(t, '}') == |t| - 1;
    assert t[..|t|] == t;
    assert t + Repeat(']', 0) + Repeat('}', 0) == t;
  }

  /** Texts cut at the same place are repaired alike. */
  lemma SameCut(x: string, y: string)
    requires LastIndexOf(x, '}') > 0 && LastIndexOf(y, '}') > 0
    requires x[..LastIndexOf(x, '}') + 1] == y[..LastIndexOf(y, '}') + 1]
    ensures TryFixJson(x) == TryFixJson(y)
  {
  }

  /** Appending only `]`s leaves the last `}` where it was. */
  lemma CutAgain(p: string, a: string)
    requires |p| >= 1 && p[|p| - 1] == '}'
    requires forall i :: 0 <= i < |a| ==> a[i] == ']'
    ensures LastIndexOf(p + a, '}') == |p| - 1 && (p + a)[..|p|] == p
  {
    var r := p + a;
    assert r[|p| - 1] == '}';
    assert forall j :: |p| <= j < |r| ==> r[j] == a[j - |p|] && r[j] != '}';
  }

  /** Repairing a repaired text changes nothing. */
  lemma TryFixIdempotent(content: string)
    requires TryFixJson(content).Some?
    ensures TryFixJson(TryFixJson(content).value) == TryFixJson(content)
  {
    var r := TryFixJson(content).value;
    var k := LastIndexOf(content, '}');
    var p := content[..k + 1];
    var a := Repeat(']', Max(0, Count(p, '[') - Count(p, ']')));
    var b := Repeat('}', Max(0, Count(p, '{') - Count(p, '}')));
    assert r == (p + a) + b;
    if |b| > 0 {
      assert TryFixJson(r) == Some(r) by {
        TryFixBalanced(content);
        RepeatOnly('}', |b|);
        assert r[|r| - 1] == b[|b| - 1];
        BalancedUnchanged(r);
      }
    } else {
      assert TryFixJson(r) == TryFixJson(content) by {
        assert r == p + a;
        RepeatOnly(']', |a|);
        CutAgain(p, a);
        SameCut(r, content);
      }
    }
  }

  /** A truncated document with no `}` after its first character is not
      repaired at all. */
  lemma NoClosingBraceNotRepaired()
    ensures TryFixJson("garbage{\"a\": [1, 2") == None
  {
    var s := "garbage{\"a\": [1, 2";
    assert forall i :: 0 < i < |s| ==> s[i] != '}';
    TryFixNone(s);
  }

  /** A document cut inside a list is closed after its last `}`: first the
      list, then the outer object. */
  lemma TruncatedListRepaired()
    ensures TryFixJson("{\"a\":[{},{") == Some("{\"a\":[{}]}")
  {
    var s := "{\"a\":[{},{";
    var p := "{\"a\":[{}";
    assert LastIndexOf(s, '}') == 7;
    assert s[..8] == p;
    assert multiset(p) == multiset{'{', '"', 'a', '"', ':', '[', '{', '}'};
    assert Repeat(']', 1) == "]" && Repeat('}', 1) == "}";
    assert p + "]" + "}" == "{\"a\":[{}]}";
  }
}

=== FILE: leaked_markers.dfy ===
/**
  The heuristic clean-up `test_directory_api` applies to a chunked body that it has
  read to the end and decoded as text, instead of decoding the chunked framing:
  drop everything before the first `{"`, delete every `\r\n<hex digits>\r\n`
  (the CRLF that closes one chunk together with the size line of the next),
  then delete every `\r\n0\r\n`.
*/
module LeakedMarkers {
  import opened Strings

  const JsonStart: string := "{\""
  const Crlf: string := "\r\n"
  const LastMarker: string := "\r\n0\r\n"

  /** The character class `[0-9a-fA-F]`. */
  predicate IsHexChar(c: char)
  {
    '0' <= c <= '9' || 'a' <= c <= 'f' || 'A' <= c <= 'F'
  }

  predicate AllHexChars(s: string)
  {
    forall i :: 0 <= i < |s| ==> IsHexChar(s[i])
  }

  predicate NoCr(s: string)
  {
    forall i :: 0 <= i < |s| ==> s[i] != '\r'
  }

  // ---------------------------------------------------------------------
  // re.sub(r'\r\n[0-9a-fA-F]+\r\n', '', content)
  // ---------------------------------------------------------------------

  /** Length of the longest run of hex digits at the start of `s`. */
  function HexRun(s: string): (n: nat)
    ensures n <= |s|
  {
    if |s| == 0 || !IsHexChar(s[0]) then 0 else 1 + HexRun(s[1..])
  }

  /** The run is all hex digits and stops at the first character that is not one. */
  lemma {:induction false} HexRunMaximal(s: string)
    ensures forall i :: 0 <= i < HexRun(s) ==> IsHexChar(s[i])
    ensures HexRun(s) < |s| ==> !IsHexChar(s[HexRun(s)])
  {
    if |s| > 0 && IsHexChar(s[0]) {
      HexRunMaximal(s[1..]);
      assert forall i :: 1 <= i < |s| ==> s[1..][i - 1] == s[i];
    }
  }

  /** The regular expression `\r\n[0-9a-fA-F]+\r\n` matches exactly the first `len` characters of `s`. */
  predicate MatchesMarker(s: string, len: nat)
  {
    5 <= len <= |s| && s[0] == '\r' && s[1] == '\n'
    && AllHexChars(s[2..len - 2]) && s[len - 2] == '\r' && s[len - 1] == '\n'
  }

  /** How many characters the pattern consumes at the start of `s`, 0 when it does not match there. */
  function MarkerLen(s: string): (len: nat)
  {
    if |s| < 2 || s[0] != '\r' || s[1] != '\n' then 0
    else
      var k := HexRun(s[2..]);
      if 1 <= k && k + 4 <= |s| && s[k + 2] == '\r' && s[k + 3] == '\n' then k + 4 else 0
  }

  /**
    The scanner agrees with the regular expression: the pattern matches a prefix
    of `s` of length `len` exactly when that is the length the scanner consumes.
    Because a hex digit is never `\r`, backtracking inside `[0-9a-fA-F]+` cannot
    produce a second, shorter match.
  */
  lemma MarkerLenIsMatch(s: string, len: nat)
    ensures MatchesMarker(s, len) <==> (len > 0 && len == MarkerLen(s))
  {
    if |s| >= 2 {
      HexRunMaximal(s[2..]);
    }
    if MatchesMarker(s, len) {
      var t := s[2..];
      var k := HexRun(t);
      assert forall i :: 0 <= i < len - 4 ==> IsHexChar(t[i]) by {
        assert forall i :: 0 <= i < len - 4 ==> t[i] == s[2..len - 2][i];
      }
      assert t[len - 4] == '\r';
    }
  }

  /** `re.sub`: scan left to right, delete each match and resume after it, else keep one character. */
  function RemoveSizeMarkers(s: string): (r: string)
    ensures |r| <= |s|
    decreases |s|
  {
    if |s| == 0 then ""
    else
      var m := MarkerLen(s);
      if m > 0 then RemoveSizeMarkers(s[m..]) else [s[0]] + RemoveSizeMarkers(s[1..])
  }

  // ---------------------------------------------------------------------
  // content.replace('\r\n0\r\n', '')
  // ---------------------------------------------------------------------

  /** `s.replace(pat, '')`: delete the leftmost occurrence, resume after it, repeat. */
  function RemoveAll(s: string, pat: string): (r: string)
    requires |pat| > 0
    ensures |r| <= |s|
    decreases |s|
  {
    if |s| < |pat| then s
    else if s[..|pat|] == pat then RemoveAll(s[|pat|..], pat)
    else [s[0]] + RemoveAll(s[1..], pat)
  }

  /** Characters before the first occurrence are copied unchanged. */
  lemma {:induction false} RemoveAllCopies(s: string, pat: string, i: nat)
    requires |pat| > 0 && i <= |s|
    requires forall j :: 0 <= j < i ==> !OccursAt(s, pat, j)
    ensures RemoveAll(s, pat) == s[..i] + RemoveAll(s[i..], pat)
    decreases i
  {
    if i > 0 && |s| >= |pat| {
      assert !OccursAt(s, pat, 0);
      var t := s[1..];
      forall j | 0 <= j < i - 1
        ensures !OccursAt(t, pat, j)
      {
        assert !OccursAt(s, pat, j + 1);
        if j + |pat| <= |t| {
          assert t[j..j + |pat|] == s[j + 1..j + 1 + |pat|];
        }
      }
      RemoveAllCopies(t, pat, i - 1);
      assert s[..i] == [s[0]] + t[..i - 1];
      assert t[i - 1..] == s[i..];
    } else if i > 0 {
      assert s[i..] == [] || |s[i..]| < |pat|;
      assert s == s[..i] + s[i..];
    }
  }

  /** Text in which `pat` never occurs is left as it is. */
  lemma RemoveAllAbsent(s: string, pat: string)
    requires |pat| > 0
    requires forall j :: 0 <= j < |s| ==> !OccursAt(s, pat, j)
    ensures RemoveAll(s, pat) == s
  {
    RemoveAllCopies(s, pat, |s|);
    assert s[..|s|] == s;
  }

  /** The scan agrees with Python's definition of replacement: `''.join(s.split(pat))`. */
  lemma {:induction false} RemoveAllIsSplitJoin(s: string, pat: string)
    requires |pat| > 0
    ensures RemoveAll(s, pat) == Join(Split(s, pat), "")
    decreases |s|
  {
    var i := Find(s, pat);
    if i < 0 {
      RemoveAllAbsent(s, pat);
    } else {
      RemoveAllCopies(s, pat, i);
      var rest := s[i + |pat|..];
      var u := s[i..];
      assert u[..|pat|] == pat;
      assert u[|pat|..] == rest;
      assert RemoveAll(u, pat) == RemoveAll(rest, pat);
      RemoveAllIsSplitJoin(rest, pat);
      var parts := Split(s, pat);
      assert parts == [s[..i]] + Split(rest, pat);
      assert parts[0] == s[..i] && parts[1..] == Split(rest, pat) && |parts| >= 2;
    }
  }

  // ---------------------------------------------------------------------
  // The whole clean-up (lines 172-180)
  // ---------------------------------------------------------------------

  /** Cut at the first `{"`, then the two deletions; text without `{"` is kept as read. */
  function StripLeakedMarkers(content: string): (r: string)
  {
    var start := Find(content, JsonStart);
    if start >= 0 then RemoveAll(RemoveSizeMarkers(content[start..]), LastMarker) else content
  }

  /** The clean-up never lengthens the text, and drops at least what precedes the first `{"`. */
  lemma StripShortens(content: string)
    ensures |StripLeakedMarkers(content)| <= |content|
    ensures Find(content, JsonStart) >= 0 ==>
      |StripLeakedMarkers(content)| <= |content| - Find(content, JsonStart)
    ensures Find(content, JsonStart) < 0 ==> StripLeakedMarkers(content) == content
  {
  }

  // ---------------------------------------------------------------------
  // What the heuristic achieves on a chunked body
  // ---------------------------------------------------------------------

  /** One chunk as it appears on the wire: size line, payload, CRLF. */
  function Frame(size: string, payload: string): (wire: string)
  {
    size + Crlf + payload + Crlf
  }

  /** A whole chunked body as text: every chunk framed, then the zero chunk `0\r\n\r\n`. */
  function Framed(sizes: seq<string>, payloads: seq<string>): (wire: string)
    requires |sizes| == |payloads|
  {
    if |sizes| == 0 then "0" + Crlf + Crlf
    else Frame(sizes[0], payloads[0]) + Framed(sizes[1..], payloads[1..])
  }

  function ConcatText(ps: seq<string>): (r: string)
  {
    if |ps| == 0 then "" else ps[0] + ConcatText(ps[1..])
  }

  /** Well-formed framing whose payloads hold no carriage return. */
  predicate CrFreeFraming(sizes: seq<string>, payloads: seq<string>)
  {
    |sizes| == |payloads|
    && (forall i :: 0 <= i < |sizes| ==> |sizes[i]| >= 1 && AllHexChars(sizes[i]))
    && (forall i :: 0 <= i < |payloads| ==> NoCr(payloads[i]))
  }

  lemma {:induction false} ConcatNoCr(ps: seq<string>)
    requires forall i :: 0 <= i < |ps| ==> NoCr(ps[i])
    ensures NoCr(ConcatText(ps))
  {
    if |ps| > 0 {
      ConcatNoCr(ps[1..]);
      var c := ConcatText(ps);
      assert c == ps[0] + ConcatText(ps[1..]);
      forall i | 0 <= i < |c|
        ensures c[i] != '\r'
      {
        if i >= |ps[0]| {
          assert c[i] == ConcatText(ps[1..])[i - |ps[0]|];
        }
      }
    }
  }

  /** Where the pattern does not match, the scan keeps the first character. */
  lemma KeepsChar(s: string)
    requires |s| > 0 && MarkerLen(s) == 0
    ensures RemoveSizeMarkers(s) == [s[0]] + RemoveSizeMarkers(s[1..])
  {
  }

  /** The pattern starts with `\r`, so any other first character is kept. */
  lemma KeepsNonCr(s: string)
    requires |s| > 0 && s[0] != '\r'
    ensures RemoveSizeMarkers(s) == [s[0]] + RemoveSizeMarkers(s[1..])
  {
    assert MarkerLen(s) == 0;
  }

  /** Where the pattern matches, the scan drops the match. */
  lemma SkipsMarker(s: string)
    requires MarkerLen(s) > 0
    ensures RemoveSizeMarkers(s) == RemoveSizeMarkers(s[MarkerLen(s)..])
  {
  }

  /** `\r\n0\r\n` cannot start in carriage-return-free text nor in the last four characters. */
  lemma NoLastMarker(c: string, e: string)
    requires NoCr(c) && |e| < |LastMarker|
    ensures forall j :: 0 <= j < |c + e| ==> !OccursAt(c + e, LastMarker, j)
  {
    forall j | 0 <= j < |c + e|
      ensures !OccursAt(c + e, LastMarker, j)
    {
      if j < |c| {
        assert (c + e)[j] == c[j];
      }
    }
  }

  /** Carriage-return-free text followed by fewer than five characters is kept by the replacement. */
  lemma KeepsCrFree(c: string, e: string)
    requires NoCr(c) && |e| < |LastMarker|
    ensures RemoveAll(c + e, LastMarker) == c + e
  {
    NoLastMarker(c, e);
    RemoveAllAbsent(c + e, LastMarker);
  }

  lemma ConsConcat(p: string, x: string)
    requires |p| > 0
    ensures (p + x)[0] == p[0] && (p + x)[1..] == p[1..] + x
    ensures [p[0]] + (p[1..] + x) == p + x
  {
  }

  lemma Regroup(a: string, b: string, c: string, d: string, e: string)
    ensures a + b + c + d + e == (a + b) + (c + (d + e))
  {
  }

  lemma RegroupAfter(x: string, a: string, b: string, c: string, d: string, e: string)
    ensures x + (a + b + c + d + e) == x + a + b + (c + (d + e))
  {
  }

  /** Text without a carriage return passes through the scan unchanged. */
  lemma {:induction false} CopiesCrFree(p: string, t: string)
    requires NoCr(p)
    ensures RemoveSizeMarkers(p + t) == p + RemoveSizeMarkers(t)
    decreases |p|
  {
    if |p| > 0 {
      var s := p + t;
      assert RemoveSizeMarkers(s) == [p[0]] + RemoveSizeMarkers(p[1..] + t) by {
        ConsConcat(p, t);
        KeepsNonCr(s);
      }
      assert RemoveSizeMarkers(p[1..] + t) == p[1..] + RemoveSizeMarkers(t) by {
        assert NoCr(p[1..]) by {
          assert forall i :: 0 <= i < |p| - 1 ==> p[1..][i] == p[i + 1];
        }
        CopiesCrFree(p[1..], t);
      }
      ConsConcat(p, RemoveSizeMarkers(t));
    } else {
      assert p + t == t;
    }
  }

  /** The hex run of a size line stops at the CRLF after it. */
  lemma HexRunOfSize(h: string, t: string)
    requires AllHexChars(h) && |t| >= 1 && t[0] == '\r'
    ensures HexRun(h + t) == |h|
    decreases |h|
  {
    if |h| > 0 {
      assert (h + t)[1..] == h[1..] + t;
      HexRunOfSize(h[1..], t);
    }
  }

  /** The CRLF closing a chunk, the next size line and its CRLF form one match. */
  lemma MarkerOfSize(h: string, rest: string)
    requires |h| >= 1 && AllHexChars(h)
    ensures MarkerLen(Crlf + h + Crlf + rest) == |h| + 4
  {
    var s := Crlf + h + Crlf + rest;
    assert s[2..] == h + (Crlf + rest);
    HexRunOfSize(h, Crlf + rest);
  }

  /** The zero chunk `\r\n0\r\n` is a match too; the CRLF ending the body is kept. */
  lemma RemovesZeroChunk()
    ensures RemoveSizeMarkers(Crlf + ("0" + Crlf + Crlf)) == Crlf
  {
    var s := Crlf + ("0" + Crlf + Crlf);
    assert s == Crlf + "0" + Crlf + Crlf;
    MarkerOfSize("0", Crlf);
    SkipsMarker(s);
    assert s[5..] == Crlf;
    assert MarkerLen(Crlf) == 0;
    KeepsChar(Crlf);
    CopiesCrFree(Crlf[1..], "");
    assert Crlf[1..] + "" == Crlf[1..];
    assert [Crlf[0]] + Crlf[1..] == Crlf;
  }

  /** A chunk boundary followed by a carriage-return-free payload leaves just the payload. */
  lemma RemovesFrame(h: string, p: string, rest: string)
    requires |h| >= 1 && AllHexChars(h) && NoCr(p)
    ensures RemoveSizeMarkers(Crlf + h + Crlf + (p + rest)) == p + RemoveSizeMarkers(rest)
  {
    var s := Crlf + h + Crlf + (p + rest);
    MarkerOfSize(h, p + rest);
    SkipsMarker(s);
    assert s[|h| + 4..] == p + rest;
    CopiesCrFree(p, rest);
  }

  lemma FramingTail(sizes: seq<string>, payloads: seq<string>)
    requires CrFreeFraming(sizes, payloads) && |sizes| > 0
    ensures CrFreeFraming(sizes[1..], payloads[1..])
    ensures |sizes[0]| >= 1 && AllHexChars(sizes[0]) && NoCr(payloads[0])
  {
    assert forall i :: 0 <= i < |sizes| - 1 ==> sizes[1..][i] == sizes[i + 1];
    assert forall i :: 0 <= i < |payloads| - 1 ==> payloads[1..][i] == payloads[i + 1];
  }

  /** What the scan leaves of the text after the first payload. */
  lemma {:induction false} RemoveFramedTail(sizes: seq<string>, payloads: seq<string>)
    requires CrFreeFraming(sizes, payloads)
    ensures RemoveSizeMarkers(Crlf + Framed(sizes, payloads)) == ConcatText(payloads) + Crlf
    decreases |sizes|
  {
    if |sizes| == 0 {
      RemovesZeroChunk();
    } else {
      FramingTail(sizes, payloads);
      RemoveFramedTail(sizes[1..], payloads[1..]);
      RemovesFramedChunk(sizes[0], payloads[0], Framed(sizes[1..], payloads[1..]), ConcatText(payloads[1..]));
    }
  }

  /** One induction step: a framed chunk in front of a tail the scan reduces to `c + CRLF`. */
  lemma RemovesFramedChunk(h: string, p: string, tail: string, c: string)
    requires |h| >= 1 && AllHexChars(h) && NoCr(p)
    requires RemoveSizeMarkers(Crlf + tail) == c + Crlf
    ensures RemoveSizeMarkers(Crlf + (Frame(h, p) + tail)) == (p + c) + Crlf
  {
    assert Crlf + (Frame(h, p) + tail) == Crlf + h + Crlf + (p + (Crlf + tail)) by {
      RegroupAfter(Crlf, h, Crlf, p, Crlf, tail);
    }
    assert RemoveSizeMarkers(Crlf + h + Crlf + (p + (Crlf + tail))) == p + (c + Crlf) by {
      RemovesFrame(h, p, Crlf + tail);
    }
    assert p + (c + Crlf) == (p + c) + Crlf;
  }

  /** On a body whose first payload opens with `{"`, the cut lands exactly at that payload. */
  lemma CutAtFirstPayload(sizes: seq<string>, payloads: seq<string>)
    requires CrFreeFraming(sizes, payloads) && |sizes| >= 1
    requires |payloads[0]| >= 2 && payloads[0][..2] == JsonStart
    ensures Find(Framed(sizes, payloads), JsonStart) == |sizes[0]| + 2
    ensures Framed(sizes, payloads)[|sizes[0]| + 2..]
         == payloads[0] + (Crlf + Framed(sizes[1..], payloads[1..]))
  {
    var s := Framed(sizes, payloads);
    var lead := sizes[0] + Crlf;
    var after := payloads[0] + (Crlf + Framed(sizes[1..], payloads[1..]));
    assert s == lead + after by {
      Regroup(sizes[0], Crlf, payloads[0], Crlf, Framed(sizes[1..], payloads[1..]));
    }
    assert AllHexChars(sizes[0]);
    JsonStartAfterLead(lead, after);
  }

  /** `{"` cannot start inside a size line and its CRLF; so it is found where the payload begins. */
  lemma JsonStartAfterLead(lead: string, after: string)
    requires |lead| >= 2 && AllHexChars(lead[..|lead| - 2]) && lead[|lead| - 2..] == Crlf
    requires |after| >= 2 && after[..2] == JsonStart
    ensures Find(lead + after, JsonStart) == |lead|
    ensures (lead + after)[|lead|..] == after
  {
    var s := lead + after;
    forall j | 0 <= j < |lead|
      ensures !OccursAt(s, JsonStart, j)
    {
      assert s[j] == lead[j];
      if j < |lead| - 2 {
        assert lead[j] == lead[..|lead| - 2][j];
      } else {
        assert lead[j] == lead[|lead| - 2..][j - (|lead| - 2)];
      }
    }
    assert s[|lead|..|lead| + 2] == after[..2];
    FindFirst(s, JsonStart, |lead|);
    assert s[|lead|..] == after;
  }

  /**
    For a chunked body whose payloads contain no carriage return and whose
    first payload starts the JSON text, the clean-up recovers the payloads
    concatenated, followed by the CRLF that ends the zero chunk (which neither
    deletion removes).
  */
  lemma StripRecoversPayloads(sizes: seq<string>, payloads: seq<string>)
    requires CrFreeFraming(sizes, payloads) && |sizes| >= 1
    requires |payloads[0]| >= 2 && payloads[0][..2] == JsonStart
    ensures StripLeakedMarkers(Framed(sizes, payloads)) == ConcatText(payloads) + Crlf
  {
    var p := payloads[0];
    var tail := Crlf + Framed(sizes[1..], payloads[1..]);
    var c := ConcatText(payloads);
    assert RemoveSizeMarkers(p + tail) == c + Crlf by {
      assert CrFreeFraming(sizes[1..], payloads[1..]);
      CopiesCrFree(p, tail);
      RemoveFramedTail(sizes[1..], payloads[1..]);
      assert c == p + ConcatText(payloads[1..]);
    }
    CutAtFirstPayload(sizes, payloads);
    ConcatNoCr(payloads);
    KeepsCrFree(c, Crlf);
  }

  /**
    The heuristic is not exact: inside JSON text that starts with `{"`, any run
    of hex digits standing alone between two CRLFs (JSON allows CRLF as
    whitespace, so `[\r\n1\r\n]` is a valid array holding 1) is taken for a
    size line and deleted together with the CRLFs.
  */
  lemma DeletesHexBetweenCrlfs(p: string, h: string, q: string)
    requires |p| >= 2 && p[..2] == JsonStart && NoCr(p) && NoCr(q)
    requires |h| >= 1 && AllHexChars(h)
    ensures StripLeakedMarkers(p + (Crlf + h + Crlf + q)) == p + q
  {
    var t := Crlf + h + Crlf + q;
    assert StripLeakedMarkers(p + t) == RemoveAll(RemoveSizeMarkers(p + t), LastMarker) by {
      StartsWithJson(p, t);
    }
    assert RemoveSizeMarkers(t) == q by {
      RemovesFrame(h, q, "");
      assert q + "" == q;
    }
    assert RemoveSizeMarkers(p + t) == p + q by {
      CopiesCrFree(p, t);
    }
    assert RemoveAll(p + q, LastMarker) == p + q by {
      NoCrConcat(p, q);
      KeepsCrFree(p + q, "");
      assert p + q + "" == p + q;
    }
  }

  const FirstObject: string := "{\"a\":1}"
  const SecondObject: string := "{\"b\":2}"

  /** A size line left between two objects is removed, and the objects end up side by side. */
  lemma MarkerBetweenObjects()
    ensures StripLeakedMarkers(FirstObject + "\r\n1a\r\n" + SecondObject) == FirstObject + SecondObject
  {
    assert FirstObject[..2] == JsonStart;
    assert AllHexChars("1a") && NoCr(FirstObject) && NoCr(SecondObject);
    DeletesHexBetweenCrlfs(FirstObject, "1a", SecondObject);
    assert FirstObject + (Crlf + "1a" + Crlf + SecondObject) == FirstObject + "\r\n1a\r\n" + SecondObject;
  }

  /** Text that opens with `{"` is cleaned up whole. */
  lemma StartsWithJson(p: string, t: string)
    requires |p| >= 2 && p[..2] == JsonStart
    ensures StripLeakedMarkers(p + t) == RemoveAll(RemoveSizeMarkers(p + t), LastMarker)
  {
    var s := p + t;
    assert s[..2] == p[..2];
    FindFirst(s, JsonStart, 0);
    assert s[0..] == s;
  }

  lemma NoCrConcat(a: string, b: string)
    requires NoCr(a) && NoCr(b)
    ensures NoCr(a + b)
  {
    forall i | 0 <= i < |a + b|
      ensures (a + b)[i] != '\r'
    {
      if i >= |a| {
        assert (a + b)[i] == b[i - |a|];
      }
    }
  }
}

=== FILE: response_headers.dfy ===
/**
  The response head of the chapter-list request: separating it from the body,
  splitting it into lines, and collecting the header fields into a dictionary
  keyed by lower-cased name, as `test_directory_api` does before it decides whether
  the body is chunked.
*/
module ResponseHeaders {
  import opened Wrappers
  import opened Strings

  const HeadEnd: string := "\r\n\r\n"
  const LineBreak: string := "\r\n"
  const FieldSeparator: string := ": "

  /** Python's `s[:end]` for `-1 <= end`: -1 drops the last element. */
  function SliceTo(s: string, end: int): (r: string)
    requires -1 <= end <= |s|
  {
    if end >= 0 then s[..end] else if s == [] then [] else s[..|s| - 1]
  }

  /** Python's `s[start:]` for `start >= 0`: empty past the end. */
  function SliceFrom(s: string, start: nat): (r: string)
  {
    if start <= |s| then s[start..] else []
  }

  /** `header_end = response_data.find(b"\r\n\r\n")` and the two slices taken
      around it.  When no blank line arrived, `find` gives -1, and the slices
      become "all but the last character" and "from character 3 on". */
  function SplitResponse(response: string): (r: (string, string))
  {
    var headerEnd := Find(response, HeadEnd);
    (SliceTo(response, headerEnd), SliceFrom(response, headerEnd + 4))
  }

  /** Where the blank line arrived, the head is what precedes its first
      occurrence and the body what follows; the head holds no blank line. */
  lemma SplitResponseFound(response: string)
    requires Contains(response, HeadEnd)
    ensures response == SplitResponse(response).0 + HeadEnd + SplitResponse(response).1
    ensures !Contains(SplitResponse(response).0, HeadEnd)
  {
    FindContains(response, HeadEnd);
    var i := Find(response, HeadEnd);
    assert response == response[..i] + response[i..i + 4] + response[i + 4..];
    NoneBeforeFirst(response, HeadEnd);
  }

  /** When the stream ended before the blank line, the `-1` from `find` is used
      as an index: the head loses its last character and the body starts at
      character 3. */
  lemma SplitResponseMissing(response: string)
    requires !Contains(response, HeadEnd)
    ensures SplitResponse(response).0 == (if response == [] then [] else response[..|response| - 1])
    ensures SplitResponse(response).1 == (if |response| >= 3 then response[3..] else [])
  {
    FindContains(response, HeadEnd);
  }

  /** `key, value = line.split(": ", 1)` for a line holding `": "`. */
  function SplitField(line: string): (field: Option<(string, string)>)
  {
    var i := Find(line, FieldSeparator);
    if i < 0 then None else Some((line[..i], line[i + 2..]))
  }

  /** A line is a field exactly when it holds `": "`; it splits at the first
      `": "`, so the key holds none and the value keeps any later ones. */
  lemma SplitFieldParts(line: string)
    ensures SplitField(line).None? <==> !Contains(line, FieldSeparator)
    ensures SplitField(line).Some? ==>
      && line == SplitField(line).value.0 + FieldSeparator + SplitField(line).value.1
      && !Contains(SplitField(line).value.0, FieldSeparator)
  {
    FindContains(line, FieldSeparator);
    var i := Find(line, FieldSeparator);
    if i >= 0 {
      assert line == line[..i] + line[i..i + 2] + line[i + 2..];
      NoneBeforeFirst(line, FieldSeparator);
    }
  }

  /** The line defines the header `name`, in any letter case. */
  predicate Defines(line: string, name: string)
  {
    SplitField(line).Some? && Lower(SplitField(line).value.0) == name
  }

  /** The dictionary built from the header lines: every line holding `": "`
      sets the lower-cased key, a later line overwriting an earlier one. */
  function HeaderMap(lines: seq<string>): (headers: map<string, string>)
  {
    if lines == [] then map[]
    else
      var m := HeaderMap(lines[..|lines| - 1]);
      var field := SplitField(lines[|lines| - 1]);
      if field.None? then m else m[Lower(field.value.0) := field.value.1]
  }

  /** A header is present exactly when some line defines it. */
  lemma {:induction false} HeaderPresent(lines: seq<string>, name: string)
    ensures name in HeaderMap(lines) <==> exists i :: 0 <= i < |lines| && Defines(lines[i], name)
    decreases |lines|
  {
    if lines != [] {
      var init := lines[..|lines| - 1];
      HeaderPresent(init, name);
      assert forall i :: 0 <= i < |init| ==> init[i] == lines[i];
    }
  }

  /** A present header has the value given by the last line defining it. */
  lemma {:induction false} HeaderValue(lines: seq<string>, name: string) returns (i: nat)
    requires name in HeaderMap(lines)
    ensures i < |lines| && Defines(lines[i], name) && HeaderMap(lines)[name] == SplitField(lines[i]).value.1
    ensures forall j :: i < j < |lines| ==> !Defines(lines[j], name)
    decreases |lines|
  {
    var init := lines[..|lines| - 1];
    var last := |lines| - 1;
    if Defines(lines[last], name) {
      i := last;
    } else {
      i := HeaderValue(init, name);
      assert lines[i] == init[i];
      assert forall j :: i < j < |init| ==> init[j] == lines[j];
    }
  }

  /** Lower-casing twice is lower-casing once. */
  lemma LowerIdempotent(s: string)
    ensures Lower(Lower(s)) == Lower(s)
  {
    var k := Lower(s);
    forall i | 0 <= i < |k| ensures Lower(k)[i] == k[i] {
      assert !('A' <= k[i] <= 'Z');
    }
  }

  /** Every key of the dictionary is already in lower case. */
  lemma {:induction false} HeaderMapKeysLower(lines: seq<string>)
    ensures forall k :: k in HeaderMap(lines) ==> Lower(k) == k
    decreases |lines|
  {
    if lines != [] {
      HeaderMapKeysLower(lines[..|lines| - 1]);
      var field := SplitField(lines[|lines| - 1]);
      if field.Some? {
        LowerIdempotent(field.value.0);
      }
    }
  }

  /** The header-line loop of `test_directory_api` (lines 127-135): the first line
      is the status line, and each later line holding `": "` is stored under
      its lower-cased name. */
  method ParseHeaders(headersRaw: string) returns (statusLine: string, headers: map<string, string>)
    ensures var lines := Split(headersRaw, LineBreak);
      statusLine == lines[0] && headers == HeaderMap(lines[1..])
  {
    var lines := Split(headersRaw, LineBreak);
    statusLine := lines[0];
    headers := map[];
    var i := 1;
    while i < |lines|
      invariant 1 <= i <= |lines|
      invariant headers == HeaderMap(lines[1..i])
    {
      var line := lines[i];
      assert lines[1..i + 1][..i - 1] == lines[1..i];
      if Contains(line, FieldSeparator) {
        var field := SplitField(line);
        headers := headers[Lower(field.value.0) := field.value.1];
      }
      i := i + 1;
    }
    assert lines[1..i] == lines[1..];
  }

  /** `headers.get('transfer-encoding', '').lower() == 'chunked'`. */
  predicate IsChunked(headers: map<string, string>)
  {
    var value := if "transfer-encoding" in headers then headers["transfer-encoding"] else "";
    Lower(value) == "chunked"
  }

  /** The body is taken as chunked exactly when the last line naming
      Transfer-Encoding, in any case, says `chunked`, in any case. */
  lemma ChunkedIffLastTransferEncoding(lines: seq<string>)
    ensures IsChunked(HeaderMap(lines)) <==>
      exists i :: 0 <= i < |lines| && Defines(lines[i], "transfer-encoding")
        && Lower(SplitField(lines[i]).value.1) == "chunked"
        && forall j :: i < j < |lines| ==> !Defines(lines[j], "transfer-encoding")
  {
    var name := "transfer-encoding";
    var m := HeaderMap(lines);
    HeaderPresent(lines, name);
    assert Lower("") != "chunked" by { assert |Lower("")| == 0; }
    if name in m {
      var k := HeaderValue(lines, name);
      // Two lines that are each the last to define the header are the same line.
      assert forall i :: (0 <= i < |lines| && Defines(lines[i], name)
        && (forall j :: i < j < |lines| ==> !Defines(lines[j], name))) ==> i == k;
    }
  }
}

=== FILE: strings.dfy ===
/** Substring search and ASCII case mapping on Python `str` values, modelled as `seq<char>`. */
module Strings {

  /** `pat` occurs in `s` starting at index `i`. */
  predicate OccursAt(s: string, pat: string, i: int)
  {
    0 <= i && i + |pat| <= |s| && s[i..i + |pat|] == pat
  }

  /** Python's `pat in s`. */
  predicate Contains(s: string, pat: string)
  {
    exists i :: 0 <= i <= |s| - |pat| && OccursAt(s, pat, i)
  }

  /** Python's `s.find(pat)`: the first index where `pat` occurs, or -1. */
  function Find(s: string, pat: string): (r: int)
    ensures -1 <= r <= |s|
    ensures r >= 0 ==> OccursAt(s, pat, r)
    ensures r >= 0 ==> forall j :: 0 <= j < r ==> !OccursAt(s, pat, j)
    ensures r < 0 ==> forall j :: !OccursAt(s, pat, j)
    decreases |s|
  {
    if |s| < |pat| then -1
    else if s[..|pat|] == pat then 0
    else
      var k := Find(s[1..], pat);
      assert forall j :: 0 < j <= |s| ==> (OccursAt(s, pat, j) <==> OccursAt(s[1..], pat, j - 1));
      if k < 0 then -1 else k + 1
  }

  lemma FindContains(s: string, pat: string)
    ensures Find(s, pat) >= 0 <==> Contains(s, pat)
  {
  }

  /** An occurrence with none before it is the one `find` reports. */
  lemma FindFirst(s: string, pat: string, i: nat)
    requires OccursAt(s, pat, i)
    requires forall j :: 0 <= j < i ==> !OccursAt(s, pat, j)
    ensures Find(s, pat) == i
  {
  }

  /** The text before the first occurrence of `pat` does not hold `pat`. */
  lemma NoneBeforeFirst(s: string, pat: string)
    requires |pat| > 0 && Find(s, pat) >= 0
    ensures !Contains(s[..Find(s, pat)], pat)
  {
    var i := Find(s, pat);
    var first := s[..i];
    forall j | 0 <= j <= |first| - |pat|
      ensures !OccursAt(first, pat, j)
    {
      assert j < i;
      assert !OccursAt(s, pat, j);
      assert first[j..j + |pat|] == s[j..j + |pat|];
    }
  }

  /** Python's `s.split(sep)` for a non-empty separator. */
  function Split(s: string, sep: string): (parts: seq<string>)
    requires |sep| > 0
    ensures |parts| >= 1
    decreases |s|
  {
    var i := Find(s, sep);
    if i < 0 then [s] else [s[..i]] + Split(s[i + |sep|..], sep)
  }

  /** `sep.join(parts)`. */
  function Join(parts: seq<string>, sep: string): (r: string)
    requires |parts| >= 1
  {
    if |parts| == 1 then parts[0] else parts[0] + sep + Join(parts[1..], sep)
  }

  /** Splitting loses nothing: joining the parts gives the text back. */
  lemma {:induction false} SplitJoin(s: string, sep: string)
    requires |sep| > 0
    ensures Join(Split(s, sep), sep) == s
    decreases |s|
  {
    var i := Find(s, sep);
    if i >= 0 {
      var rest := s[i + |sep|..];
      var parts := Split(s, sep);
      assert parts == [s[..i]] + Split(rest, sep);
      assert parts[0] == s[..i] && parts[1..] == Split(rest, sep) && |parts| >= 2;
      assert Join(parts, sep) == s[..i] + sep + Join(Split(rest, sep), sep);
      SplitJoin(rest, sep);
      assert s == s[..i] + s[i..i + |sep|] + rest;
    }
  }

  /** No part holds the separator. */
  lemma {:induction false} SplitParts(s: string, sep: string)
    requires |sep| > 0
    ensures forall k :: 0 <= k < |Split(s, sep)| ==> !Contains(Split(s, sep)[k], sep)
    decreases |s|
  {
    var i := Find(s, sep);
    FindContains(s, sep);
    if i >= 0 {
      var rest := s[i + |sep|..];
      SplitParts(rest, sep);
      NoneBeforeFirst(s, sep);
      assert Split(s, sep) == [s[..i]] + Split(rest, sep);
    }
  }

  /** Python's `c.lower()` restricted to ASCII: `A`-`Z` map to `a`-`z`, all else is kept. */
  function LowerChar(c: char): (r: char)
  {
    if 'A' <= c <= 'Z' then (c as int + 32) as char else c
  }

  /** Python's `s.lower()` restricted to ASCII letters: no capital is left,
      each capital becomes its small letter, and every other character stays. */
  function Lower(s: string): (r: string)
    ensures |r| == |s|
    ensures forall i :: 0 <= i < |r| ==> !('A' <= r[i] <= 'Z')
    ensures forall i :: 0 <= i < |s| && 'A' <= s[i] <= 'Z' ==> r[i] as int == s[i] as int + 32
    ensures forall i :: 0 <= i < |s| && !('A' <= s[i] <= 'Z') ==> r[i] == s[i]
  {
    seq(|s|, i requires 0 <= i < |s| => LowerChar(s[i]))
  }
}

=== FILE: wrappers.dfy ===
/** Python's `None`-or-value results, as an option type. */
module Wrappers {
  datatype Option<+T> = None | Some(value: T)
}
